=== FILE: README.md ===
# Selective search: region bookkeeping and greedy merging, in Dafny

This project models the core of `selectivesearch/selectivesearch.py`. Given a
label grid from an over-segmentation, the code builds one region per label.
It then derives a neighbour graph and scores each neighbour pair on colour,
texture, size and fill. Finally it merges the best-scoring pair again and
again, and emits one rectangle proposal per region in the table.

The model uses these types:

- Integer geometry for boxes.
- Dafny `real` for histograms and scores. This is exact rational arithmetic,
  not floating point.
- A `Table` for the region dictionary `R`: the ids in insertion order plus a
  map from id to region.
- A sequence of `Edge`s with distinct keys for the similarity dictionary `S`.
  Assigning to an existing key keeps its place, a new key goes at the end,
  and deleting a key keeps the order of the rest.

Modules, one file each:

| file | module | what it holds |
|---|---|---|
| geometry.dfy | Geometry | boxes, union box, area, the corner-containment neighbour test |
| histograms.dfy | Histograms | histogram sums, the size-weighted blend, histogram intersection |
| regions.dfy | Regions | region records, `_merge_regions`, `_expand_regions`, the region table |
| similarity.dfy | Similarity | `_sim_colour`, `_sim_texture`, `_sim_size`, `_sim_fill`, `_calc_sim` |
| extraction.dfy | Extraction | pass 1 of `_extract_regions` over a label grid, pixel counts |
| edges.dfy | Edges | the similarity dictionary: keys, filtering, assignment, the argmax |
| neighbours.dfy | Neighbours | `_extract_neighbours`: neighbour pairs and the mask |
| merge_loop.dfy | MergeLoop | initial similarities, `region_pop`, one loop step, the loop |
| frontier.dfy | Frontier | the regions no merge has consumed yet, and what the loop keeps true of them |
| search.dfy | Search | `selective_search` after segmentation: pipeline and output |

Behaviours the model keeps exactly as the code has them:

- **The neighbour test is one-directional.** The pair `(a, b)` is an edge when a
  corner of the *later* box `b` lies strictly inside the earlier box `a`.
  `Geometry.CornerInsideIsOneDirectional` gives two boxes for which this
  holds one way and not the other. `Geometry.CrossingBoxesAreMissed` gives
  two overlapping boxes in a cross shape that the test never links.
- **The tie-break.** The code sorts the items by score with a stable sort and
  takes the last one. Among equal maximal scores, that is the edge latest in
  the dictionary (`Edges.BestIndex`). The model keeps the dictionary's
  insertion order: `Edges.Put` appends a new key and leaves an existing one
  in place, `Edges.FilterConcat` shows that deletion keeps relative order,
  and `MergeLoop.StepKeepsOrder` shows that each step keeps the surviving
  edges in front and appends the new region's edges after them.
- **Histograms arrive normalised.** Each of the three channel blocks is
  divided by the region's pixel count (lines 99 and 145). So every colour
  block has mass 1 and the whole colour histogram has mass 3. A texture
  block has mass at most 1, because values outside the binning range are
  not counted. `Histograms.ColourNormalised` and
  `Histograms.TextureNormalised` state this, and merging keeps it
  (`Regions.MergeKeepsNormalised`).
- **Extraction keeps the `0xffff` sentinel.** A box's maximum always equals
  a pixel coordinate of its label. The minimum does only when coordinates
  stay at or below `0xffff`. `Extraction.SentinelCapsMinimum` shows the
  minimum stuck at the sentinel past that point.
- **Two sources of `bbox_size`.** An expanded initial region keeps the area of
  its box *before* expansion. A merged region gets the area of its expanded
  union box.
- **Edge keys are ordered pairs `(a, b)`.** Retirement (line 358) removes
  every key that contains `i` or `j`, in either position. The exact-tuple
  comparison appears only in the reconnect filter `a != (i, j)` (line 369).
  `MergeLoop.Step` preserves `MergeLoop.Inv`, whose `NoFlips` clause says
  `(a, b)` and `(b, a)` never coexist, so excluding only `(i, j)` there never reconnects `t` to `i` or `j`.
- **The frontier of the merge tree.** A region is consumed once a merge
  uses it; the rest form the frontier (`Frontier.IsFrontier`). Every edge
  joins two frontier regions, their label sets are pairwise disjoint, and
  their sizes add up to the image's pixel count. Each step replaces the
  merged pair by the new region (`Frontier.StepKeepsFrontier`). So this holds
  before the loop (`Search.InitialFrontier`) and after it
  (`Search.SearchFrontier`). Consumed regions stay in the table.
- **The output walks the whole table.** Regions consumed by a merge are
  emitted too. Only ids set aside by `region_pop` are skipped.

## Model

| member | source | states |
|---|---|---|
| Geometry.Union | selectivesearch/selectivesearch.py:234-237 | the componentwise min/max box encloses both boxes and is enclosed by every box that encloses both |
| Geometry.CornerInsideFactors | selectivesearch/selectivesearch.py:199-209 | the four corner cases together say that one x-side of b lies strictly inside a's x-range and one y-side of b lies strictly inside a's y-range |
| Geometry.CornerInsideOverlaps | selectivesearch/selectivesearch.py:199-209 | when the neighbour test passes for an ordered box, the two boxes overlap |
| Geometry.CornerInsideIsOneDirectional | selectivesearch/selectivesearch.py:199-209 | boxes exist that pass the test with one box first and fail it with the other first |
| Geometry.CrossingBoxesAreMissed | selectivesearch/selectivesearch.py:199-209 | two overlapping crossing boxes fail the test in both orders |
| Geometry.AreaMonotone | selectivesearch/selectivesearch.py:249 | a box enclosing an ordered box has at least its area, and that area is non-negative |
| Histograms.IntersectionSymmetric | selectivesearch/selectivesearch.py:38-49 | the sum of pairwise minima does not depend on the order of the histograms |
| Histograms.IntersectionBounds | selectivesearch/selectivesearch.py:38-49 | for non-negative bins the intersection is at least 0 and at most the sum of either histogram |
| Histograms.IntersectionSelf | selectivesearch/selectivesearch.py:38-49 | a histogram intersected with itself gives its own sum |
| Histograms.Blend | selectivesearch/selectivesearch.py:243-246 | every bin of the merged histogram, times the total size, is the size-weighted sum of the parents' bins |
| Histograms.BlendMass | selectivesearch/selectivesearch.py:243-246 | the merged histogram's mass, times the total size, is the size-weighted sum of the parents' masses |
| Histograms.BlendKeepsMass | selectivesearch/selectivesearch.py:243-246 | blending two histograms of the same mass, whatever it is, gives a histogram of that mass |
| Histograms.MeanWithin | selectivesearch/selectivesearch.py:243-246 | with positive sizes, a size-weighted mean of two values lies within any bounds both values share |
| Histograms.BlockMassesSum | selectivesearch/selectivesearch.py:89-99 | a histogram of three channel blocks, each of mass in [lo, hi], has total mass in [3 lo, 3 hi]; for colour (each block 1, line 99) the total is 3 |
| Histograms.BlendKeepsBlockMasses | selectivesearch/selectivesearch.py:243-246 | with positive sizes, blending keeps every shared per-block mass bound: colour blocks of mass 1 stay at 1, texture blocks of mass at most 1 stay at most 1 |
| Histograms.BlendNonNegative | selectivesearch/selectivesearch.py:243-246 | with positive sizes, blending non-negative histograms gives a non-negative histogram |
| Similarity.SimSize | selectivesearch/selectivesearch.py:52-56 | the size term is at most 1, and at least 0 when the pair fits in the image |
| Similarity.SimFill | selectivesearch/selectivesearch.py:59-67 | the fill term is at most 1 when the pair's pixels fit in its union box, and at least 0 when that box fits in the image |
| Similarity.CalcSimSymmetric | selectivesearch/selectivesearch.py:70-72 | the score of a pair does not depend on which region comes first |
| Similarity.HistogramTermsBounded | selectivesearch/selectivesearch.py:38-49 | for histograms normalised as lines 89-99 and 134-145 build them, the colour term lies in [0, 3], and the texture term lies in [0, 3], at most the texture mass of either region |
| Similarity.SizeAndFill | selectivesearch/selectivesearch.py:52-67 | for any sizes, the size and fill terms add up to 2 minus the union box's area over imsize: the pair's pixel count cancels |
| Similarity.CalcSimBounded | selectivesearch/selectivesearch.py:38-72 | for such histograms and ordered boxes inside the image, whatever the regions' sizes, the score lies in [1, 8] |
| Similarity.IdenticalHistogramsScoreFully | selectivesearch/selectivesearch.py:38-49 | two regions with equal histograms score the full 3 on colour (for a normalised colour histogram) and their texture mass on texture |
| Regions.Merge | selectivesearch/selectivesearch.py:231-250 | the merged size is the sum of the sizes; both boxes (expanded and original) are the least boxes enclosing the parents'; labels are concatenated; bbox_size is the area of the merged expanded box; histograms are size-weighted averages |
| Regions.MergeWithin | selectivesearch/selectivesearch.py:231-250 | merging boxes inside the image stays inside it, and the merged bbox_size is at least each parent's box area |
| Regions.MergeKeepsNormalised | selectivesearch/selectivesearch.py:243-246 | merging regions whose histograms are normalised as lines 99 and 145 leave them (non-negative, colour blocks of mass 1, texture blocks of mass at most 1) gives histograms normalised the same way |
| Regions.ExpandOne | selectivesearch/selectivesearch.py:256-270 | each side moves out by the border but not past 0 or the limit; the original box becomes og; size, histograms and labels carry over; bbox_size is the unexpanded area |
| Regions.ExpandOneEncloses | selectivesearch/selectivesearch.py:257-260 | with a non-negative border, an ordered box inside the image is enclosed by its expansion, which is ordered and inside the image |
| Regions.Expand | selectivesearch/selectivesearch.py:252-272 | the new table is valid, its keys are exactly 0..n-1 in extraction order, and key k holds the expansion of the k-th region |
| Extraction.Pixels | selectivesearch/selectivesearch.py:158-159 | a pixel is in the scan exactly when it is a cell of the grid with its label |
| Extraction.PixelsAt | selectivesearch/selectivesearch.py:158-159 | the scan is row-major: on a rectangular grid, the cell at column x of row y is the scan's pixel number y * width + x |
| Extraction.PixelCount | selectivesearch/selectivesearch.py:158-159 | a rectangular grid has height times width pixels |
| Extraction.Pass1 | selectivesearch/selectivesearch.py:158-175 | each label seen gets exactly one box and one place in the label list, has a pixel, and its box covers every pixel of the label |
| Extraction.PassOneFirstSeen | selectivesearch/selectivesearch.py:158-163 | the label list is in order of first appearance: for each earlier label, a pixel of it comes before every pixel of each later label |
| Extraction.PassOneOrdered | selectivesearch/selectivesearch.py:162-175 | every box the scan builds has min <= max on both axes |
| Extraction.PassOneMaxTight | selectivesearch/selectivesearch.py:172-175 | for non-negative coordinates, each box maximum is the coordinate of some pixel of its label |
| Extraction.PassOneMinTight | selectivesearch/selectivesearch.py:162-171 | for coordinates at most 0xffff, each box minimum is the coordinate of some pixel of its label |
| Extraction.SentinelCapsMinimum | selectivesearch/selectivesearch.py:162-169 | a label whose pixels all lie past x = 0xffff keeps min_x = 0xffff |
| Extraction.Count | selectivesearch/selectivesearch.py:185-186 | a label's pixel count is positive exactly when the label occurs |
| Extraction.LabelPixelsConcat | selectivesearch/selectivesearch.py:232 | the pixel count of concatenated label lists is the sum of their counts |
| Extraction.ExtractRegions | selectivesearch/selectivesearch.py:150-193 | every grid label has exactly one region with labels [l]; its size is the label's pixel count; its box is ordered, inside the image and covers every pixel of the label (tightness: `Extraction.ExtractedBoxesTight`); bbox_size is the box area |
| Extraction.ExtractedBoxesTight | selectivesearch/selectivesearch.py:162-175 | each extracted box is pass 1's box for its label; a cell of the label lies on its right and bottom sides, and on its left and top sides when width and height stay within 0x10000, so with the covering above it is the least box covering the label |
| Extraction.CountSnoc | selectivesearch/selectivesearch.py:185-187 | one more pixel raises the count of its own label by one and leaves every other label's count alone |
| Extraction.LabelPixelsSnoc | selectivesearch/selectivesearch.py:185-187 | one more pixel raises the summed count of distinct labels by one exactly when its label is among them |
| Extraction.PassOnePartitions | selectivesearch/selectivesearch.py:158-187 | the pixel counts of the labels pass 1 finds add up to the number of pixels scanned: each pixel belongs to exactly one label |
| Extraction.AssembleSize | selectivesearch/selectivesearch.py:183-193 | the sizes of the regions built for a label list add up to those labels' pixel count |
| Extraction.ExtractedSizesCoverImage | selectivesearch/selectivesearch.py:150-193 | the sizes of the extracted regions add up to height times width, the `imsize` of line 312 |
| Extraction.ExtractedInScanOrder | selectivesearch/selectivesearch.py:158-193 | the extracted regions come in the order of their labels' first pixels in the row-major scan (`Extraction.PixelsAt`), the order in which expansion numbers them |
| Edges.Filter | selectivesearch/selectivesearch.py:362-363 | deleting keys keeps exactly the accepted edges and keeps keys distinct |
| Edges.FilterConcat | selectivesearch/selectivesearch.py:362-363 | deletion keeps relative order: what survives of a prefix comes before what survives of the rest |
| Edges.FilterSplit | selectivesearch/selectivesearch.py:357-363 | the edges deleted and the edges kept together number as many as before |
| Edges.Put | selectivesearch/selectivesearch.py:371 | after assignment the key holds the new score; a new key is appended after all old edges; every old position keeps its key, and its edge unless that key was assigned; the key set grows by the key |
| Edges.BestIndex | selectivesearch/selectivesearch.py:349 | the chosen edge has a maximal score and every later edge scores strictly less |
| Edges.BestIndexUnique | selectivesearch/selectivesearch.py:349 | the two properties above pin down the chosen position |
| Neighbours.NeighbourPairs | selectivesearch/selectivesearch.py:212-221 | the pairs are positions a < b, each at most once, in the nested loops' lexicographic order, and (a, b) is present exactly when the test passes with a first |
| Neighbours.Mask | selectivesearch/selectivesearch.py:213-221 | mask[i] is set exactly when some pair mentions position i |
| Neighbours.UnmaskedHasNoEarlierNeighbour | selectivesearch/selectivesearch.py:223-225 | a position whose mask entry is unset is never the second member of a pair |
| MergeLoop.InitialEdges | selectivesearch/selectivesearch.py:325-326 | one edge per neighbour pair, keyed by the regions' ids, and the result satisfies the loop invariant |
| MergeLoop.NewId | selectivesearch/selectivesearch.py:352 | the fresh id exceeds every id in the table by at least one and is one above some id |
| MergeLoop.NewIdIsFresh | selectivesearch/selectivesearch.py:352-353 | the fresh id names no region yet |
| MergeLoop.SelectedInTable | selectivesearch/selectivesearch.py:349-353 | the selected key names two distinct regions of the table |
| MergeLoop.RetiredKeys | selectivesearch/selectivesearch.py:355-370 | the retired keys are the keys touching i or j; each except (i, j) names a third region of the table |
| MergeLoop.Reconnect | selectivesearch/selectivesearch.py:369-371 | the new key set is the old one plus (t, n) for each retired key's other region n; every new edge carries the score of t against n; keys stay distinct; old positions keep their keys and, unless they start at t, their edges; appended edges all start at t |
| MergeLoop.ReconnectKeepsInv | selectivesearch/selectivesearch.py:369-371 | adding the edges of the new region keeps the loop invariant, flipped keys included |
| MergeLoop.Step | selectivesearch/selectivesearch.py:346-371 | one iteration keeps the invariant, strictly shrinks the map, appends the fresh id, and stores the merge of the selected pair under it |
| MergeLoop.StepRetiresMerged | selectivesearch/selectivesearch.py:355-371 | after a step no key mentions either merged region |
| MergeLoop.StepKeepsRetired | selectivesearch/selectivesearch.py:355-371 | a region no key mentions stays unmentioned after a step, except the new one |
| MergeLoop.StepFreezesOversized | selectivesearch/selectivesearch.py:366-367 | a merged region over the cap gets no edge; the map is exactly the old edges of neither parent |
| MergeLoop.StepKeepsOrder | selectivesearch/selectivesearch.py:355-371 | after a step the surviving old edges form the front of the map in their old order, and every edge after them starts at the new id |
| MergeLoop.StepReconnects | selectivesearch/selectivesearch.py:366-371 | within the cap, the new key set is the old keys of neither parent plus one key (t, n) per other region n of a retired key |
| MergeLoop.Agglomerate | selectivesearch/selectivesearch.py:346-371 | the loop ends with an empty map, keeps the invariant, only adds regions, adds at most as many as there were edges, and every added region has two or more labels |
| MergeLoop.AgglomeratePreserves | selectivesearch/selectivesearch.py:346-353 | a region property that every merge preserves holds of every region the loop leaves |
| MergeLoop.Oversized | selectivesearch/selectivesearch.py:335-341 | the popped ids are exactly the table's ids whose bbox_size exceeds the cap |
| MergeLoop.RegionPop | selectivesearch/selectivesearch.py:332-343 | the popped list is the ids over the cap, and the map keeps exactly the edges naming no popped id |
| Frontier.Drop | selectivesearch/selectivesearch.py:352-353 | the list keeps exactly the ids other than the merged pair, and stays distinct |
| Frontier.SumDrop | selectivesearch/selectivesearch.py:232 | taking the merged pair off a distinct list takes exactly their sizes off its summed size |
| Frontier.ReplacePair | selectivesearch/selectivesearch.py:231-247 | storing the merge of two listed regions (labels concatenated, sizes added) under a fresh id in place of the pair keeps the ids distinct, the label sets pairwise disjoint and the summed size unchanged |
| Frontier.StepKeepsFrontier | selectivesearch/selectivesearch.py:346-371 | one step keeps a frontier with the pair replaced by the new region: every remaining edge joins two frontier regions, label sets stay pairwise disjoint, and the summed size is unchanged |
| Frontier.AgglomerateLive | selectivesearch/selectivesearch.py:346-371 | the loop ends with a frontier holding the same total size, whose regions have pairwise disjoint label sets and no edge outside it, and a region consumed before the loop is not on it |
| Search.InitialFrontier | selectivesearch/selectivesearch.py:150-343 | before the loop all initial regions form a frontier: one distinct label each, every edge between two of them, sizes adding up to height times width |
| Search.SearchFrontier | selectivesearch/selectivesearch.py:346-371 | the final table has a frontier whose regions have pairwise disjoint label sets and together hold height times width pixels |
| Search.RectOf | selectivesearch/selectivesearch.py:379-381 | the rectangle gives back the box, and its sides are non-negative exactly when the box is ordered |
| Search.RectOfBoxOf | selectivesearch/selectivesearch.py:379-381 | every rectangle is the rectangle of its own box, so the rectangle loses nothing |
| Search.Emit | selectivesearch/selectivesearch.py:373-385 | a record is in the output exactly when it is the record of a table id not on the popped list, consumed regions included; for distinct ids the output has one record per such id |
| Search.SelectiveSearch | selectivesearch/selectivesearch.py:373-401 | og_regions is empty; without region_pop there is one proposal per key of the final table |
| Search.SearchKeepsInitialRegions | selectivesearch/selectivesearch.py:373-385 | every initial region not set aside appears in the output with its labels, bbox_size and size |
| Search.SearchDropsPopped | selectivesearch/selectivesearch.py:332-341 | with region_pop, no single-label record in the output has bbox_size over the cap |
| Search.SearchSizesArePixelCounts | selectivesearch/selectivesearch.py:186 | every record's size is the pixel count of its labels |
| Search.SearchBoxesInImage | selectivesearch/selectivesearch.py:257-260 | with a non-negative border every output rectangle has non-negative sides and lies inside the image |

## Left out

- Segmentation (felzenszwalb), `rgb2hsv` and the LBP texture gradient: these are
  library calls that cannot be seen. The label grid and each label's colour and
  texture histograms are inputs.
- Histogram binning (`numpy.histogram`, lines 96 and 142) is a library call, so
  each label's histograms are inputs of lengths 75 (colour) and 30 (texture).
  The division by the pixel count (lines 99 and 145) that follows binning is
  stated as the predicates `Histograms.ColourNormalised` (each colour block
  has mass 1, the histogram mass 3) and `Histograms.TextureNormalised` (each
  texture block has mass at most 1). The similarity bounds assume them.
  Extraction does not require them of its inputs.
- Floating point, including rounding and NaN. Scores and histograms are exact
  reals, and region sizes are positive, so no division is by zero.
- Fresh ids are floats in the code (`max(R.keys()) + 1.0`). They are integers
  here; the order and the uniqueness of ids are unaffected.
- The image array plumbing: the mask as a fourth channel, the three-channel
  assertion, and returning `img`. The model starts from the label grid.
- The branch that returns when no segmented image is produced. The segmentation
  step always returns an image, so this branch is dead.
- The commented-out `og_regions` block. The list it would fill is returned empty.
- Pass 1's running `bbox_size`, recomputed at every pixel: only its final value
  (the area of the final box) is modelled.
- `max_region_size` and `border` are integers.
- Image width and height are the grid's dimensions, so `imsize` is their product.
- Search.SelectiveSearch: its own contract states only the empty `og_regions`
  and the output count; the content of the output is stated by the four
  `Search.Search*` lemmas.
- Search.SearchDropsPopped: popped ids are identified in the output by having
  a single label, because the records carry no ids; merged regions always
  carry two or more labels.

=== FILE: edges.dfy ===
/** The similarity map `S`: an insertion-ordered dictionary from a pair of
    region ids to a score, held as a sequence of edges with distinct keys.
    Assigning to a key keeps its place; a new key goes at the end; deleting
    keeps the order of the rest. */
module Edges {

  /** An ordered key `(a, b)` of the similarity map. */
  datatype Pair = Pair(a: int, b: int)

  datatype Edge = Edge(key: Pair, score: real)

  function Flip(p: Pair): Pair
  {
    Pair(p.b, p.a)
  }

  /** `x in k` for a key tuple `k`. */
  predicate Mentions(p: Pair, x: int)
  {
    p.a == x || p.b == x
  }

  /** `(i in k) or (j in k)`. */
  predicate Touches(p: Pair, i: int, j: int)
  {
    Mentions(p, i) || Mentions(p, j)
  }

  predicate KeysDistinct(s: seq<Edge>)
  {
    forall p, q :: 0 <= p < q < |s| ==> s[p].key != s[q].key
  }

  function KeySet(s: seq<Edge>): set<Pair>
  {
    set e | e in s :: e.key
  }

  function KeysOf(s: seq<Edge>): (ks: seq<Pair>)
    ensures |ks| == |s|
    ensures forall k :: 0 <= k < |s| ==> ks[k] == s[k].key
  {
    seq(|s|, k requires 0 <= k < |s| => s[k].key)
  }

  lemma DistinctCons(e: Edge, s: seq<Edge>)
    requires KeysDistinct(s)
    requires forall f :: f in s ==> f.key != e.key
    ensures KeysDistinct([e] + s)
  {
    var r := [e] + s;
    forall p, q | 0 <= p < q < |r|
      ensures r[p].key != r[q].key
    {
      if p > 0 {
        assert r[p] == s[p - 1] && r[q] == s[q - 1];
      } else {
        assert r[q] in s;
      }
    }
  }

  /** The edges `keep` accepts, in their original order. */
  function Filter(s: seq<Edge>, keep: Edge -> bool): (r: seq<Edge>)
    ensures forall e :: e in r <==> e in s && keep(e)
    ensures KeysDistinct(s) ==> KeysDistinct(r)
    ensures |r| <= |s|
    decreases |s|
  {
    if |s| == 0 then []
    else
      var rest := Filter(s[1..], keep);
      assert forall e :: e in s <==> e == s[0] || e in s[1..];
      if keep(s[0]) then
        if KeysDistinct(s) then
          assert forall f :: f in rest ==> f in s[1..];
          assert forall f :: f in s[1..] ==> f.key != s[0].key by {
            forall f | f in s[1..]
              ensures f.key != s[0].key
            {
              var q :| 0 <= q < |s[1..]| && s[1..][q] == f;
              assert s[q + 1] == f;
            }
          }
          DistinctCons(s[0], rest);
          [s[0]] + rest
        else
          [s[0]] + rest
      else
        rest
  }

  /** Filtering keeps the relative order of the edges: what survives of a
      prefix comes before what survives of the rest. */
  lemma {:induction false} FilterConcat(a: seq<Edge>, b: seq<Edge>, keep: Edge -> bool)
    ensures Filter(a + b, keep) == Filter(a, keep) + Filter(b, keep)
    decreases |a|
  {
    if |a| == 0 {
      assert a + b == b;
    } else {
      assert (a + b)[0] == a[0] && (a + b)[1..] == a[1..] + b;
      FilterConcat(a[1..], b, keep);
    }
  }

  /** Splitting by a predicate and its negation loses and duplicates nothing. */
  lemma {:induction false} FilterSplit(s: seq<Edge>, keep: Edge -> bool, drop: Edge -> bool)
    requires forall e :: drop(e) == !keep(e)
    ensures |Filter(s, keep)| + |Filter(s, drop)| == |s|
    decreases |s|
  {
    if |s| > 0 {
      FilterSplit(s[1..], keep, drop);
    }
  }

  /** `S[k] = v`: an existing key keeps its place and takes the new value; a
      new key goes at the end. */
  function Put(s: seq<Edge>, k: Pair, v: real): (r: seq<Edge>)
    ensures Edge(k, v) in r
    ensures forall e :: e in r ==> e == Edge(k, v) || e in s
    ensures forall e :: e in s && e.key != k ==> e in r
    ensures KeySet(r) == KeySet(s) + {k}
    ensures KeysDistinct(s) ==> KeysDistinct(r)
    ensures |r| == if k in KeySet(s) then |s| else |s| + 1
    ensures k !in KeySet(s) ==> r == s + [Edge(k, v)]
    ensures forall p :: 0 <= p < |s| ==> r[p].key == s[p].key && (s[p].key != k ==> r[p] == s[p])
  {
    if k in KeySet(s) then
      var r := seq(|s|, p requires 0 <= p < |s| => if s[p].key == k then Edge(k, v) else s[p]);
      assert r[IndexOfKey(s, k)] == Edge(k, v);
      assert forall e :: e in s && e.key != k ==> e in r by {
        forall e | e in s && e.key != k
          ensures e in r
        {
          var p :| 0 <= p < |s| && s[p] == e;
          assert r[p] == e;
        }
      }
      r
    else
      s + [Edge(k, v)]
  }

  function IndexOfKey(s: seq<Edge>, k: Pair): (p: nat)
    requires k in KeySet(s)
    ensures p < |s| && s[p].key == k
  {
    var e :| e in s && e.key == k;
    if s[0].key == k then 0
    else
      assert e in s[1..];
      1 + IndexOfKey(s[1..], k)
  }

  /** The position `sorted(S.items(), key=score)[-1]` picks: a maximal score,
      and among maximal scores the edge latest in the map. */
  function BestIndex(s: seq<Edge>): (k: nat)
    requires |s| > 0
    ensures k < |s|
    ensures forall p :: 0 <= p < |s| ==> s[p].score <= s[k].score
    ensures forall p :: k < p < |s| ==> s[p].score < s[k].score
    decreases |s|
  {
    if |s| == 1 then 0
    else
      var k0 := BestIndex(s[..|s| - 1]);
      if s[|s| - 1].score >= s[k0].score then |s| - 1 else k0
  }

  /** The two properties of `BestIndex` determine the position uniquely: any
      stable ordering by score ends with the same edge. */
  lemma BestIndexUnique(s: seq<Edge>, k: nat)
    requires k < |s|
    requires forall p :: 0 <= p < |s| ==> s[p].score <= s[k].score
    requires forall p :: k < p < |s| ==> s[p].score < s[k].score
    ensures k == BestIndex(s)
  {
  }
}

=== FILE: extraction.dfy ===
/** Building one region per segment label from the label grid the
    segmentation produces: the row-major pixel scan that grows each label's
    bounding box, the pixel count of each label, and the assembly of the
    extracted regions in order of first appearance. */
module Extraction {
  import opened Geometry
  import opened Histograms
  import opened Regions

  type Label = int

  /** One pixel of the label grid: column `x`, row `y`, segment label. */
  datatype Pixel = Pixel(x: int, y: int, segment: Label)

  /** Every row of the grid has `width` labels. */
  predicate Rectangular(rows: seq<seq<Label>>, width: nat)
  {
    forall y :: 0 <= y < |rows| ==> |rows[y]| == width
  }

  predicate InGrid(rows: seq<seq<Label>>, p: Pixel)
  {
    0 <= p.y < |rows| && 0 <= p.x < |rows[p.y]| && p.segment == rows[p.y][p.x]
  }

  function RowPixels(row: seq<Label>, y: int): (px: seq<Pixel>)
    ensures |px| == |row|
    ensures forall x :: 0 <= x < |row| ==> px[x] == Pixel(x, y, row[x])
  {
    seq(|row|, x requires 0 <= x < |row| => Pixel(x, y, row[x]))
  }

  /** The grid's pixels in scan order: row by row, left to right. */
  function Pixels(rows: seq<seq<Label>>): (px: seq<Pixel>)
    ensures forall p :: p in px <==> InGrid(rows, p)
    decreases |rows|
  {
    if |rows| == 0 then []
    else
      var front := Pixels(rows[..|rows| - 1]);
      PixelsStep(rows, front);
      front + RowPixels(rows[|rows| - 1], |rows| - 1)
  }

  /** Appending the last row's pixels to the scan of the rows above it gives
      the scan of the whole grid. */
  lemma PixelsStep(rows: seq<seq<Label>>, front: seq<Pixel>)
    requires |rows| > 0
    requires forall p :: p in front <==> InGrid(rows[..|rows| - 1], p)
    ensures forall p :: p in front + RowPixels(rows[|rows| - 1], |rows| - 1) <==> InGrid(rows, p)
  {
    var last := |rows| - 1;
    var px := front + RowPixels(rows[last], last);
    forall p
      ensures p in px <==> InGrid(rows, p)
    {
      if InGrid(rows, p) {
        if p.y == last {
          assert px[|front| + p.x] == p;
        } else {
          assert InGrid(rows[..last], p);
        }
      }
    }
  }

  /** A grid of `height` rows of `width` pixels has `height * width` pixels. */
  lemma {:induction false} PixelCount(rows: seq<seq<Label>>, width: nat)
    requires Rectangular(rows, width)
    ensures |Pixels(rows)| == |rows| * width
    decreases |rows|
  {
    if |rows| > 0 {
      PixelCount(rows[..|rows| - 1], width);
    }
  }

  /** The scan is row-major: the pixel at column `x` of row `y` sits at
      position `y * width + x`. */
  lemma {:induction false} PixelsAt(rows: seq<seq<Label>>, width: nat)
    requires Rectangular(rows, width)
    ensures |Pixels(rows)| == |rows| * width
    ensures forall y, x :: 0 <= y < |rows| && 0 <= x < width ==>
      Pixels(rows)[y * width + x] == Pixel(x, y, rows[y][x])
    decreases |rows|
  {
    PixelCount(rows, width);
    if |rows| > 0 {
      var last := |rows| - 1;
      var above := rows[..last];
      PixelsAt(above, width);
      forall y, x | 0 <= y < |rows| && 0 <= x < width
        ensures Pixels(rows)[y * width + x] == Pixel(x, y, rows[y][x])
      {
        if y < last {
          RowOffset(y, x, width, last);
          assert above[y] == rows[y];
        } else {
          assert y * width == |Pixels(above)|;
        }
      }
    }
  }

  /** A cell of a row above row `last` comes before that row's first cell. */
  lemma RowOffset(y: nat, x: nat, width: nat, last: nat)
    requires y < last && x < width
    ensures y * width + x < last * width
  {
    assert (y + 1) * width <= last * width;
  }

  /** The initial minimum of a new box; the maxima start at 0. */
  const Sentinel: int := 0xffff

  /** The state of the scan: labels in order of first appearance and the
      box grown so far for each. */
  datatype Scan = Scan(order: seq<Label>, boxes: map<Label, Box>)

  predicate Covers(b: Box, p: Pixel)
  {
    b.minX <= p.x <= b.maxX && b.minY <= p.y <= b.maxY
  }

  /** One step of the scan: open a box for a new label, then widen the box to
      the pixel. */
  function Visit(sc: Scan, p: Pixel): Scan
  {
    var started := if p.segment in sc.boxes then sc
                  else Scan(sc.order + [p.segment], sc.boxes[p.segment := Box(Sentinel, Sentinel, 0, 0)]);
    var b := started.boxes[p.segment];
    var grown := Box(
      if b.minX > p.x then p.x else b.minX,
      if b.minY > p.y then p.y else b.minY,
      if b.maxX < p.x then p.x else b.maxX,
      if b.maxY < p.y then p.y else b.maxY);
    Scan(started.order, started.boxes[p.segment := grown])
  }

  /** Pass 1 of extraction over a pixel sequence. */
  function Pass1(px: seq<Pixel>): (sc: Scan)
    ensures forall l :: l in sc.boxes ==> l in sc.order
    ensures forall l :: l in sc.order ==> l in sc.boxes
    ensures forall a, b :: 0 <= a < b < |sc.order| ==> sc.order[a] != sc.order[b]
    ensures forall l :: l in sc.boxes ==> exists p :: p in px && p.segment == l
    ensures forall p :: p in px ==> p.segment in sc.boxes && Covers(sc.boxes[p.segment], p)
    decreases |px|
  {
    if |px| == 0 then Scan([], map[])
    else
      var front := px[..|px| - 1];
      assert px == front + [px[|px| - 1]];
      VisitStep(front, px[|px| - 1], Pass1(front));
      Visit(Pass1(front), px[|px| - 1])
  }

  /** What pass 1 promises of the pixels scanned so far. */
  predicate ScanOf(px: seq<Pixel>, sc: Scan)
  {
    && (forall l :: l in sc.boxes ==> l in sc.order)
    && (forall l :: l in sc.order ==> l in sc.boxes)
    && (forall a, b :: 0 <= a < b < |sc.order| ==> sc.order[a] != sc.order[b])
    && (forall l :: l in sc.boxes ==> exists p :: p in px && p.segment == l)
    && (forall p :: p in px ==> p.segment in sc.boxes && Covers(sc.boxes[p.segment], p))
  }

  /** Visiting one more pixel keeps the scan's promises. */
  lemma VisitStep(front: seq<Pixel>, p: Pixel, sc: Scan)
    requires ScanOf(front, sc)
    ensures ScanOf(front + [p], Visit(sc, p))
  {
    var px := front + [p];
    var r := Visit(sc, p);
    assert forall q :: q in px <==> q in front || q == p;
    forall l | l in r.boxes
      ensures exists q :: q in px && q.segment == l
    {
      if l != p.segment {
        var q :| q in front && q.segment == l;
        assert q in px;
      } else {
        assert p in px;
      }
    }
    if p.segment !in sc.boxes {
      forall a, b | 0 <= a < b < |r.order|
        ensures r.order[a] != r.order[b]
      {
        if b == |sc.order| {
          assert r.order[a] == sc.order[a] && sc.order[a] in sc.order;
        }
      }
    }
  }

  /** The first pixel of label `l1` comes before the first pixel of `l2`:
      every pixel of `l2` has a pixel of `l1` somewhere before it. */
  predicate Precedes(px: seq<Pixel>, l1: Label, l2: Label)
  {
    forall q :: 0 <= q < |px| && px[q].segment == l2 ==> exists p :: 0 <= p < q && px[p].segment == l1
  }

  /** Pass 1 lists the labels in order of first appearance. */
  lemma {:induction false} PassOneFirstSeen(px: seq<Pixel>)
    ensures forall a, b :: 0 <= a < b < |Pass1(px).order| ==> Precedes(px, Pass1(px).order[a], Pass1(px).order[b])
    decreases |px|
  {
    if |px| > 0 {
      var front := px[..|px| - 1];
      var last := px[|px| - 1];
      assert px == front + [last];
      PassOneFirstSeen(front);
      PassOneOrderStep(px);
      var o0 := Pass1(front).order;
      forall a, b | 0 <= a < b < |Pass1(px).order|
        ensures Precedes(px, Pass1(px).order[a], Pass1(px).order[b])
      {
        FirstSeenStep(front, last, o0, a, b);
      }
    }
  }

  /** Pass 1's label list grows by the last pixel's label exactly when that
      label is new. */
  lemma PassOneOrderStep(px: seq<Pixel>)
    requires |px| > 0
    ensures var front, last := px[..|px| - 1], px[|px| - 1];
      && (forall w :: w in front ==> w.segment in Pass1(front).order)
      && (forall l :: l in Pass1(front).order ==> exists w :: w in front && w.segment == l)
      && Pass1(px).order == if last.segment in Pass1(front).order then Pass1(front).order
                            else Pass1(front).order + [last.segment]
  {
  }

  lemma FirstSeenStep(front: seq<Pixel>, last: Pixel, o0: seq<Label>, a: int, b: int)
    requires forall a, b :: 0 <= a < b < |o0| ==> Precedes(front, o0[a], o0[b])
    requires forall w :: w in front ==> w.segment in o0
    requires forall l :: l in o0 ==> exists w :: w in front && w.segment == l
    requires var o := if last.segment in o0 then o0 else o0 + [last.segment];
      0 <= a < b < |o|
    ensures var o := if last.segment in o0 then o0 else o0 + [last.segment];
      Precedes(front + [last], o[a], o[b])
  {
    assert o0[a] in o0;
    if b < |o0| {
      assert o0[b] in o0;
      PrecedesSnoc(front, last, o0[a], o0[b]);
    } else {
      PrecedesNew(front, last, o0[a]);
    }
  }

  /** An order between two labels seen so far survives one more pixel. */
  lemma PrecedesSnoc(front: seq<Pixel>, last: Pixel, l1: Label, l2: Label)
    requires Precedes(front, l1, l2)
    requires exists w :: w in front && w.segment == l2
    ensures Precedes(front + [last], l1, l2)
  {
    var px := front + [last];
    forall q | 0 <= q < |px| && px[q].segment == l2
      ensures exists p :: 0 <= p < q && px[p].segment == l1
    {
      var q' := q;
      if q == |front| {
        var w :| w in front && w.segment == l2;
        q' :| 0 <= q' < |front| && front[q'] == w;
      }
      assert front[q'].segment == l2;
      var p :| 0 <= p < q' && front[p].segment == l1;
      assert px[p] == front[p];
    }
  }

  /** A label seen so far precedes the label of a pixel never seen before. */
  lemma PrecedesNew(front: seq<Pixel>, last: Pixel, l1: Label)
    requires exists w :: w in front && w.segment == l1
    requires forall w :: w in front ==> w.segment != last.segment
    ensures Precedes(front + [last], l1, last.segment)
  {
    var px := front + [last];
    forall q | 0 <= q < |px| && px[q].segment == last.segment
      ensures exists p :: 0 <= p < q && px[p].segment == l1
    {
      if q < |front| {
        assert false;
      }
      var w :| w in front && w.segment == l1;
      var p :| 0 <= p < |front| && front[p] == w;
      assert px[p] == front[p];
    }
  }

  /** Every box the scan builds is ordered. */
  lemma PassOneOrdered(px: seq<Pixel>)
    ensures forall l :: l in Pass1(px).boxes ==> Ordered(Pass1(px).boxes[l])
  {
    var sc := Pass1(px);
    forall l | l in sc.boxes
      ensures Ordered(sc.boxes[l])
    {
      var p :| p in px && p.segment == l;
      assert Covers(sc.boxes[l], p);
    }
  }

  /** Each box's maxima are attained by a pixel of its label, provided the
      coordinates are non-negative (the maxima start at 0). */
  lemma {:induction false} PassOneMaxTight(px: seq<Pixel>)
    requires forall p :: p in px ==> p.x >= 0 && p.y >= 0
    ensures forall l :: l in Pass1(px).boxes ==>
      (exists p :: p in px && p.segment == l && p.x == Pass1(px).boxes[l].maxX) &&
      (exists p :: p in px && p.segment == l && p.y == Pass1(px).boxes[l].maxY)
    decreases |px|
  {
    if |px| > 0 {
      var front := px[..|px| - 1];
      var p := px[|px| - 1];
      assert forall q :: q in front ==> q in px;
      PassOneMaxTight(front);
      var sc0 := Pass1(front);
      var sc := Pass1(px);
      forall l | l in sc.boxes
        ensures exists q :: q in px && q.segment == l && q.x == sc.boxes[l].maxX
        ensures exists q :: q in px && q.segment == l && q.y == sc.boxes[l].maxY
      {
        if l != p.segment {
          assert sc.boxes[l] == sc0.boxes[l];
        } else if l !in sc0.boxes {
          assert sc.boxes[l].maxX == p.x && sc.boxes[l].maxY == p.y;
        } else {
          var b := sc0.boxes[l];
          if b.maxX < p.x {
            assert sc.boxes[l].maxX == p.x;
          } else {
            var q :| q in front && q.segment == l && q.x == b.maxX;
            assert q in px && sc.boxes[l].maxX == q.x;
          }
          if b.maxY < p.y {
            assert sc.boxes[l].maxY == p.y;
          } else {
            var q :| q in front && q.segment == l && q.y == b.maxY;
            assert q in px && sc.boxes[l].maxY == q.y;
          }
        }
      }
    }
  }

  /** Each box's minima are attained by a pixel of its label, provided no
      coordinate exceeds the sentinel `0xffff`. */
  lemma {:induction false} PassOneMinTight(px: seq<Pixel>)
    requires forall p :: p in px ==> p.x <= Sentinel && p.y <= Sentinel
    ensures forall l :: l in Pass1(px).boxes ==>
      (exists p :: p in px && p.segment == l && p.x == Pass1(px).boxes[l].minX) &&
      (exists p :: p in px && p.segment == l && p.y == Pass1(px).boxes[l].minY)
    decreases |px|
  {
    if |px| > 0 {
      var front := px[..|px| - 1];
      var p := px[|px| - 1];
      assert forall q :: q in front ==> q in px;
      PassOneMinTight(front);
      var sc0 := Pass1(front);
      var sc := Pass1(px);
      forall l | l in sc.boxes
        ensures exists q :: q in px && q.segment == l && q.x == sc.boxes[l].minX
        ensures exists q :: q in px && q.segment == l && q.y == sc.boxes[l].minY
      {
        if l != p.segment {
          assert sc.boxes[l] == sc0.boxes[l];
        } else if l !in sc0.boxes {
          assert sc.boxes[l].minX == p.x && sc.boxes[l].minY == p.y;
        } else {
          var b := sc0.boxes[l];
          if b.minX > p.x {
            assert sc.boxes[l].minX == p.x;
          } else {
            var q :| q in front && q.segment == l && q.x == b.minX;
            assert q in px && sc.boxes[l].minX == q.x;
          }
          if b.minY > p.y {
            assert sc.boxes[l].minY == p.y;
          } else {
            var q :| q in front && q.segment == l && q.y == b.minY;
            assert q in px && sc.boxes[l].minY == q.y;
          }
        }
      }
    }
  }

  /** Past the sentinel the minimum is not tight: a label whose pixels all lie
      right of column `0xffff` still gets `min_x = 0xffff`. */
  lemma {:induction false} SentinelCapsMinimum(px: seq<Pixel>, l: Label)
    requires l in Pass1(px).boxes
    requires forall p :: p in px && p.segment == l ==> p.x > Sentinel
    ensures Pass1(px).boxes[l].minX == Sentinel
    decreases |px|
  {
    var front := px[..|px| - 1];
    var p := px[|px| - 1];
    assert forall q :: q in front ==> q in px;
    if l in Pass1(front).boxes {
      SentinelCapsMinimum(front, l);
    }
  }

  /** The number of pixels with label `l`. */
  function Count(px: seq<Pixel>, l: Label): (n: nat)
    ensures n > 0 <==> exists p :: p in px && p.segment == l
    ensures n <= |px|
    decreases |px|
  {
    if |px| == 0 then 0
    else
      assert forall q :: q in px[1..] ==> q in px;
      (if px[0].segment == l then 1 else 0) + Count(px[1..], l)
  }

  /** The pixel count of a list of labels. */
  function LabelPixels(px: seq<Pixel>, ls: seq<Label>): nat
    decreases |ls|
  {
    if |ls| == 0 then 0 else Count(px, ls[0]) + LabelPixels(px, ls[1..])
  }

  /** Counting the pixels of two label lists one after the other. */
  lemma {:induction false} LabelPixelsConcat(px: seq<Pixel>, a: seq<Label>, b: seq<Label>)
    ensures LabelPixels(px, a + b) == LabelPixels(px, a) + LabelPixels(px, b)
    decreases |a|
  {
    if |a| > 0 {
      assert (a + b)[1..] == a[1..] + b;
      LabelPixelsConcat(px, a[1..], b);
    } else {
      assert a + b == b;
    }
  }

  /** Appending a pixel adds one to the count of its own label only. */
  lemma {:induction false} CountSnoc(px: seq<Pixel>, p: Pixel, l: Label)
    ensures Count(px + [p], l) == Count(px, l) + (if p.segment == l then 1 else 0)
    decreases |px|
  {
    if |px| == 0 {
      assert px + [p] == [p];
      assert [p][1..] == [];
    } else {
      assert (px + [p])[1..] == px[1..] + [p];
      CountSnoc(px[1..], p, l);
    }
  }

  /** Appending a pixel adds one to the count of a list of distinct labels
      exactly when its label is among them. */
  lemma {:induction false} LabelPixelsSnoc(px: seq<Pixel>, p: Pixel, ls: seq<Label>)
    requires forall a, b :: 0 <= a < b < |ls| ==> ls[a] != ls[b]
    ensures LabelPixels(px + [p], ls) == LabelPixels(px, ls) + (if p.segment in ls then 1 else 0)
    decreases |ls|
  {
    if |ls| > 0 {
      CountSnoc(px, p, ls[0]);
      LabelPixelsSnoc(px, p, ls[1..]);
      assert p.segment in ls <==> p.segment == ls[0] || p.segment in ls[1..];
      if p.segment == ls[0] {
        assert p.segment !in ls[1..];
      }
    }
  }

  /** The labels pass 1 finds partition the pixels: their pixel counts add up
      to the number of pixels scanned. */
  lemma {:induction false} PassOnePartitions(px: seq<Pixel>)
    ensures LabelPixels(px, Pass1(px).order) == |px|
    decreases |px|
  {
    if |px| > 0 {
      var front := px[..|px| - 1];
      var p := px[|px| - 1];
      assert px == front + [p];
      var o := Pass1(front).order;
      PassOnePartitions(front);
      LabelPixelsSnoc(front, p, Pass1(px).order);
      if p.segment !in Pass1(front).boxes {
        assert Pass1(px).order == o + [p.segment];
        LabelPixelsConcat(front, o, [p.segment]);
        assert [p.segment][1..] == [];
        assert Count(front, p.segment) == 0;
      }
    }
  }

  /** The histograms of every label of the grid are supplied, with the
      lengths the binning produces. */
  predicate HistogramsCover(rows: seq<seq<Label>>, histC: map<Label, seq<real>>, histT: map<Label, seq<real>>)
  {
    forall y, x :: 0 <= y < |rows| && 0 <= x < |rows[y]| ==>
      && rows[y][x] in histC && |histC[rows[y][x]]| == ColourHistLength
      && rows[y][x] in histT && |histT[rows[y][x]]| == TextureHistLength
  }

  /** The extracted region of each label in `order`. */
  function Assemble(order: seq<Label>, boxes: map<Label, Box>, px: seq<Pixel>,
                    histC: map<Label, seq<real>>, histT: map<Label, seq<real>>): (raws: seq<RawRegion>)
    requires forall k :: 0 <= k < |order| ==> order[k] in boxes && order[k] in histC && order[k] in histT
    ensures |raws| == |order|
    ensures forall k :: 0 <= k < |order| ==>
      && raws[k].labels == [order[k]]
      && raws[k].box == boxes[order[k]]
      && raws[k].size == Count(px, order[k])
      && raws[k].histC == histC[order[k]] && raws[k].histT == histT[order[k]]
      && raws[k].bboxSize == Area(raws[k].box)
    decreases |order|
  {
    if |order| == 0 then []
    else
      var l := order[0];
      [RawRegion(boxes[l], Count(px, l), histC[l], histT[l], [l], Area(boxes[l]))]
        + Assemble(order[1..], boxes, px, histC, histT)
  }

  /** With non-negative coordinates no box minimum drops below 0. */
  lemma {:induction false} PassOneMinFloor(px: seq<Pixel>)
    requires forall p :: p in px ==> p.x >= 0 && p.y >= 0
    ensures forall l :: l in Pass1(px).boxes ==> Pass1(px).boxes[l].minX >= 0 && Pass1(px).boxes[l].minY >= 0
    decreases |px|
  {
    if |px| > 0 {
      var front := px[..|px| - 1];
      assert forall q :: q in front ==> q in px;
      PassOneMinFloor(front);
    }
  }

  /** Every pixel of the grid is in the scan. */
  lemma GridPixels(rows: seq<seq<Label>>, width: nat, y: int, x: int)
    requires Rectangular(rows, width)
    requires 0 <= y < |rows| && 0 <= x < width
    ensures Pixel(x, y, rows[y][x]) in Pixels(rows)
  {
    assert InGrid(rows, Pixel(x, y, rows[y][x]));
  }

  /** What the scan of a grid gives a label it has seen. */
  lemma GridLabel(rows: seq<seq<Label>>, width: nat, histC: map<Label, seq<real>>, histT: map<Label, seq<real>>, l: Label)
    requires Rectangular(rows, width)
    requires HistogramsCover(rows, histC, histT)
    requires l in Pass1(Pixels(rows)).boxes
    ensures l in histC && |histC[l]| == ColourHistLength
    ensures l in histT && |histT[l]| == TextureHistLength
    ensures Count(Pixels(rows), l) > 0
    ensures Ordered(Pass1(Pixels(rows)).boxes[l])
    ensures Within(Pass1(Pixels(rows)).boxes[l], width - 1, |rows| - 1)
  {
    var px := Pixels(rows);
    var p :| p in px && p.segment == l;
    assert InGrid(rows, p);
    assert rows[p.y][p.x] == l;
    GridBox(rows, width, l);
  }

  lemma GridBox(rows: seq<seq<Label>>, width: nat, l: Label)
    requires Rectangular(rows, width)
    requires l in Pass1(Pixels(rows)).boxes
    ensures Ordered(Pass1(Pixels(rows)).boxes[l])
    ensures Within(Pass1(Pixels(rows)).boxes[l], width - 1, |rows| - 1)
  {
    var px := Pixels(rows);
    var b := Pass1(px).boxes[l];
    PassOneOrdered(px);
    PassOneMaxTight(px);
    PassOneMinFloor(px);
    var qx :| qx in px && qx.segment == l && qx.x == b.maxX;
    var qy :| qy in px && qy.segment == l && qy.y == b.maxY;
    assert InGrid(rows, qx) && InGrid(rows, qy);
  }

  /** Some cell of label `l` lies in column `x`. */
  predicate InColumn(rows: seq<seq<Label>>, l: Label, x: int)
  {
    exists y :: 0 <= y < |rows| && 0 <= x < |rows[y]| && rows[y][x] == l
  }

  /** Some cell of label `l` lies in row `y`. */
  predicate InRow(rows: seq<seq<Label>>, l: Label, y: int)
  {
    0 <= y < |rows| && exists x :: 0 <= x < |rows[y]| && rows[y][x] == l
  }

  /** A cell of the grid puts its label in its column and its row. */
  lemma CellOf(rows: seq<seq<Label>>, q: Pixel)
    requires InGrid(rows, q)
    ensures InColumn(rows, q.segment, q.x) && InRow(rows, q.segment, q.y)
  {
    assert rows[q.y][q.x] == q.segment;
  }

  /** Every scanned pixel is a cell of the grid, so its coordinates lie in
      `[0, width) x [0, height)`. */
  lemma GridCoordinates(rows: seq<seq<Label>>, width: nat)
    requires Rectangular(rows, width)
    ensures forall p :: p in Pixels(rows) ==> InGrid(rows, p) && 0 <= p.x < width && 0 <= p.y < |rows|
  {
  }

  /** The box pass 1 builds for a label of the grid reaches a cell of the
      label on its right and bottom sides. */
  lemma LabelMaxTight(rows: seq<seq<Label>>, width: nat, l: Label)
    requires Rectangular(rows, width)
    requires l in Pass1(Pixels(rows)).boxes
    ensures InColumn(rows, l, Pass1(Pixels(rows)).boxes[l].maxX)
    ensures InRow(rows, l, Pass1(Pixels(rows)).boxes[l].maxY)
  {
    var px := Pixels(rows);
    GridCoordinates(rows, width);
    PassOneMaxTight(px);
    var qx :| qx in px && qx.segment == l && qx.x == Pass1(px).boxes[l].maxX;
    var qy :| qy in px && qy.segment == l && qy.y == Pass1(px).boxes[l].maxY;
    CellOf(rows, qx);
    CellOf(rows, qy);
  }

  /** It reaches one on its left and top sides too when no coordinate passes
      the `0xffff` sentinel. */
  lemma LabelMinTight(rows: seq<seq<Label>>, width: nat, l: Label)
    requires Rectangular(rows, width)
    requires width <= Sentinel + 1 && |rows| <= Sentinel + 1
    requires l in Pass1(Pixels(rows)).boxes
    ensures InColumn(rows, l, Pass1(Pixels(rows)).boxes[l].minX)
    ensures InRow(rows, l, Pass1(Pixels(rows)).boxes[l].minY)
  {
    var px := Pixels(rows);
    GridCoordinates(rows, width);
    PassOneMinTight(px);
    var qx :| qx in px && qx.segment == l && qx.x == Pass1(px).boxes[l].minX;
    var qy :| qy in px && qy.segment == l && qy.y == Pass1(px).boxes[l].minY;
    CellOf(rows, qx);
    CellOf(rows, qy);
  }

  /** `_extract_regions`: one region per label of the grid, in order of the
      label's first pixel. Each box covers every cell of its label;
      `ExtractedBoxesTight` shows it is also reached by one on every side. */
  function ExtractRegions(rows: seq<seq<Label>>, width: nat,
                          histC: map<Label, seq<real>>, histT: map<Label, seq<real>>): (raws: seq<RawRegion>)
    requires Rectangular(rows, width)
    requires HistogramsCover(rows, histC, histT)
    ensures forall y, x :: 0 <= y < |rows| && 0 <= x < width ==>
      exists k :: 0 <= k < |raws| && raws[k].labels == [rows[y][x]]
    ensures forall a, b :: 0 <= a < b < |raws| ==> raws[a].labels != raws[b].labels
    ensures forall k :: 0 <= k < |raws| ==>
      && |raws[k].labels| == 1
      && raws[k].size == Count(Pixels(rows), raws[k].labels[0])
      && raws[k].size > 0
      && raws[k].bboxSize == Area(raws[k].box)
      && |raws[k].histC| == ColourHistLength && |raws[k].histT| == TextureHistLength
      && Ordered(raws[k].box)
      && Within(raws[k].box, width - 1, |rows| - 1)
    ensures forall k, y, x :: 0 <= k < |raws| && 0 <= y < |rows| && 0 <= x < width && rows[y][x] == raws[k].labels[0] ==>
      Covers(raws[k].box, Pixel(x, y, rows[y][x]))
    ensures |raws| > 0 ==> |rows| > 0 && width > 0
  {
    var px := Pixels(rows);
    var sc := Pass1(px);
    forall l | l in sc.order
      ensures l in histC && l in histT
    {
      GridLabel(rows, width, histC, histT, l);
    }
    var raws := Assemble(sc.order, sc.boxes, px, histC, histT);
    ExtractFacts(rows, width, histC, histT, px, sc, raws);
    raws
  }

  /** The extracted boxes are tight: each is the box pass 1 builds for its
      label, and a cell of the label lies on its right and bottom sides, and
      on its left and top sides while coordinates stay within the `0xffff`
      sentinel. With `ExtractRegions` covering every cell of the label, each
      box is then the least box covering its label. */
  lemma ExtractedBoxesTight(rows: seq<seq<Label>>, width: nat,
                            histC: map<Label, seq<real>>, histT: map<Label, seq<real>>)
    requires Rectangular(rows, width)
    requires HistogramsCover(rows, histC, histT)
    ensures var raws := ExtractRegions(rows, width, histC, histT);
      && (forall k :: 0 <= k < |raws| ==> raws[k].box == Pass1(Pixels(rows)).boxes[raws[k].labels[0]])
      && (forall k :: 0 <= k < |raws| ==>
            InColumn(rows, raws[k].labels[0], raws[k].box.maxX) && InRow(rows, raws[k].labels[0], raws[k].box.maxY))
      && (width <= Sentinel + 1 && |rows| <= Sentinel + 1 ==> forall k :: 0 <= k < |raws| ==>
            InColumn(rows, raws[k].labels[0], raws[k].box.minX) && InRow(rows, raws[k].labels[0], raws[k].box.minY))
  {
    var px := Pixels(rows);
    var sc := Pass1(px);
    forall l | l in sc.order
      ensures l in histC && l in histT
    {
      GridLabel(rows, width, histC, histT, l);
    }
    var raws := Assemble(sc.order, sc.boxes, px, histC, histT);
    assert forall k :: 0 <= k < |raws| ==> raws[k].labels == [sc.order[k]] && raws[k].box == sc.boxes[sc.order[k]];
    ExtractTight(rows, width, sc, raws);
  }

  /** Each extracted box is the label's pass-1 box, with its sides reached. */
  lemma ExtractTight(rows: seq<seq<Label>>, width: nat, sc: Scan, raws: seq<RawRegion>)
    requires Rectangular(rows, width)
    requires sc == Pass1(Pixels(rows))
    requires |raws| == |sc.order|
    requires forall k :: 0 <= k < |raws| ==> raws[k].labels == [sc.order[k]] && raws[k].box == sc.boxes[sc.order[k]]
    ensures forall k :: 0 <= k < |raws| ==>
      InColumn(rows, raws[k].labels[0], raws[k].box.maxX) && InRow(rows, raws[k].labels[0], raws[k].box.maxY)
    ensures width <= Sentinel + 1 && |rows| <= Sentinel + 1 ==> forall k :: 0 <= k < |raws| ==>
      InColumn(rows, raws[k].labels[0], raws[k].box.minX) && InRow(rows, raws[k].labels[0], raws[k].box.minY)
  {
    forall k | 0 <= k < |raws|
      ensures InColumn(rows, raws[k].labels[0], raws[k].box.maxX) && InRow(rows, raws[k].labels[0], raws[k].box.maxY)
      ensures width <= Sentinel + 1 && |rows| <= Sentinel + 1 ==>
        InColumn(rows, raws[k].labels[0], raws[k].box.minX) && InRow(rows, raws[k].labels[0], raws[k].box.minY)
    {
      var l := sc.order[k];
      assert l in sc.order;
      LabelMaxTight(rows, width, l);
      if width <= Sentinel + 1 && |rows| <= Sentinel + 1 {
        LabelMinTight(rows, width, l);
      }
    }
  }

  /** What `ExtractRegions` promises, proved of the regions it assembles. */
  lemma ExtractFacts(rows: seq<seq<Label>>, width: nat, histC: map<Label, seq<real>>, histT: map<Label, seq<real>>,
                     px: seq<Pixel>, sc: Scan, raws: seq<RawRegion>)
    requires Rectangular(rows, width)
    requires HistogramsCover(rows, histC, histT)
    requires px == Pixels(rows) && sc == Pass1(px)
    requires forall k :: 0 <= k < |sc.order| ==> sc.order[k] in histC && sc.order[k] in histT
    requires raws == Assemble(sc.order, sc.boxes, px, histC, histT)
    ensures forall y, x :: 0 <= y < |rows| && 0 <= x < width ==>
      exists k :: 0 <= k < |raws| && raws[k].labels == [rows[y][x]]
    ensures forall a, b :: 0 <= a < b < |raws| ==> raws[a].labels != raws[b].labels
    ensures forall k :: 0 <= k < |raws| ==>
      && |raws[k].labels| == 1
      && raws[k].size == Count(Pixels(rows), raws[k].labels[0])
      && raws[k].size > 0
      && raws[k].bboxSize == Area(raws[k].box)
      && |raws[k].histC| == ColourHistLength && |raws[k].histT| == TextureHistLength
      && Ordered(raws[k].box)
      && Within(raws[k].box, width - 1, |rows| - 1)
    ensures forall k, y, x :: 0 <= k < |raws| && 0 <= y < |rows| && 0 <= x < width && rows[y][x] == raws[k].labels[0] ==>
      Covers(raws[k].box, Pixel(x, y, rows[y][x]))
    ensures |raws| > 0 ==> |rows| > 0 && width > 0
  {
    forall y, x | 0 <= y < |rows| && 0 <= x < width
      ensures exists k :: 0 <= k < |raws| && raws[k].labels == [rows[y][x]]
    {
      GridPixels(rows, width, y, x);
      var l := rows[y][x];
      assert l in sc.order;
      var k :| 0 <= k < |sc.order| && sc.order[k] == l;
      assert raws[k].labels == [l];
    }
    forall a, b | 0 <= a < b < |raws|
      ensures raws[a].labels != raws[b].labels
    {
      assert raws[a].labels[0] == sc.order[a] && raws[b].labels[0] == sc.order[b];
    }
    forall k | 0 <= k < |raws|
      ensures raws[k].size > 0
      ensures |raws[k].histC| == ColourHistLength && |raws[k].histT| == TextureHistLength
      ensures Ordered(raws[k].box) && Within(raws[k].box, width - 1, |rows| - 1)
    {
      GridLabel(rows, width, histC, histT, sc.order[k]);
    }
    forall k, y, x | 0 <= k < |raws| && 0 <= y < |rows| && 0 <= x < width && rows[y][x] == raws[k].labels[0]
      ensures Covers(raws[k].box, Pixel(x, y, rows[y][x]))
    {
      GridPixels(rows, width, y, x);
    }
    if |raws| > 0 {
      var p :| p in px && p.segment == sc.order[0];
      assert InGrid(rows, p);
    }
  }

  /** The summed size of a list of regions. */
  function TotalSize(raws: seq<RawRegion>): int
    decreases |raws|
  {
    if |raws| == 0 then 0 else raws[0].size + TotalSize(raws[1..])
  }

  /** The assembled regions together hold the pixels of their labels. */
  lemma {:induction false} AssembleSize(order: seq<Label>, boxes: map<Label, Box>, px: seq<Pixel>,
                                        histC: map<Label, seq<real>>, histT: map<Label, seq<real>>)
    requires forall k :: 0 <= k < |order| ==> order[k] in boxes && order[k] in histC && order[k] in histT
    ensures TotalSize(Assemble(order, boxes, px, histC, histT)) == LabelPixels(px, order)
    decreases |order|
  {
    if |order| > 0 {
      AssembleSize(order[1..], boxes, px, histC, histT);
    }
  }

  /** Size conservation at the start: every pixel of the grid belongs to
      exactly one extracted region, so the sizes add up to height * width. */
  lemma ExtractedSizesCoverImage(rows: seq<seq<Label>>, width: nat,
                                 histC: map<Label, seq<real>>, histT: map<Label, seq<real>>)
    requires Rectangular(rows, width)
    requires HistogramsCover(rows, histC, histT)
    ensures TotalSize(ExtractRegions(rows, width, histC, histT)) == |rows| * width
  {
    var px := Pixels(rows);
    var sc := Pass1(px);
    forall l | l in sc.order
      ensures l in histC && l in histT
    {
      GridLabel(rows, width, histC, histT, l);
    }
    AssembleSize(sc.order, sc.boxes, px, histC, histT);
    PassOnePartitions(px);
    PixelCount(rows, width);
  }

  /** The extracted regions come in the order of their labels' first pixels
      in the row-major scan; that order fixes the ids `0..n-1` expansion
      gives them. */
  lemma ExtractedInScanOrder(rows: seq<seq<Label>>, width: nat,
                             histC: map<Label, seq<real>>, histT: map<Label, seq<real>>)
    requires Rectangular(rows, width)
    requires HistogramsCover(rows, histC, histT)
    ensures var raws := ExtractRegions(rows, width, histC, histT);
      forall a, b :: 0 <= a < b < |raws| ==> Precedes(Pixels(rows), raws[a].labels[0], raws[b].labels[0])
  {
    var px := Pixels(rows);
    var sc := Pass1(px);
    forall l | l in sc.order
      ensures l in histC && l in histT
    {
      GridLabel(rows, width, histC, histT, l);
    }
    PassOneFirstSeen(px);
    AssembleInOrder(sc.order, sc.boxes, px, histC, histT);
  }

  lemma AssembleInOrder(order: seq<Label>, boxes: map<Label, Box>, px: seq<Pixel>,
                        histC: map<Label, seq<real>>, histT: map<Label, seq<real>>)
    requires forall k :: 0 <= k < |order| ==> order[k] in boxes && order[k] in histC && order[k] in histT
    requires forall a, b :: 0 <= a < b < |order| ==> Precedes(px, order[a], order[b])
    ensures var raws := Assemble(order, boxes, px, histC, histT);
      forall a, b :: 0 <= a < b < |raws| ==> Precedes(px, raws[a].labels[0], raws[b].labels[0])
  {
    var raws := Assemble(order, boxes, px, histC, histT);
    forall a, b | 0 <= a < b < |raws|
      ensures Precedes(px, raws[a].labels[0], raws[b].labels[0])
    {
      assert raws[a].labels == [order[a]] && raws[b].labels == [order[b]];
    }
  }
}

=== FILE: frontier.dfy ===
/** The frontier of the merge tree: the regions no merge has consumed yet.
    Their label sets are pairwise disjoint and their sizes add up to the
    image's pixel count, and every edge of the similarity map joins two of
    them. Each step of the loop takes the merged pair off the frontier and
    puts the new region on it, so all of this holds for the whole loop. */
module Frontier {
  import opened Regions
  import opened Edges
  import opened MergeLoop

  /** No label is in both lists. */
  predicate Disjoint(x: seq<int>, y: seq<int>)
  {
    forall l :: l in x ==> l !in y
  }

  predicate Distinct(s: seq<int>)
  {
    forall p, q :: 0 <= p < q < |s| ==> s[p] != s[q]
  }

  /** The summed size of the regions that `ids` names. */
  function SizeSum(regions: map<int, Region>, ids: seq<int>): int
    requires forall x :: x in ids ==> x in regions
    decreases |ids|
  {
    if |ids| == 0 then 0
    else
      var x := ids[0];
      assert x in ids;
      regions[x].size + SizeSum(regions, ids[1..])
  }

  /** `live` is a frontier of `st` holding `total` pixels: distinct ids of the
      table, an end of no edge outside it (a consumed region has no edge),
      pairwise disjoint label sets, and sizes adding up to `total`. */
  predicate IsFrontier(st: State, live: seq<int>, total: int)
  {
    && (forall x :: x in live ==> x in st.table.regions)
    && Distinct(live)
    && (forall e :: e in st.edges ==> e.key.a in live && e.key.b in live)
    && (forall x, y :: x in live && y in live && x != y ==>
          Disjoint(st.table.regions[x].labels, st.table.regions[y].labels))
    && SizeSum(st.table.regions, live) == total
  }

  /** `s` without `i` and `j`, in order. */
  function Drop(s: seq<int>, i: int, j: int): (r: seq<int>)
    ensures forall x :: x in r <==> x in s && x != i && x != j
    ensures Distinct(s) ==> Distinct(r)
    decreases |s|
  {
    if |s| == 0 then []
    else
      var rest := Drop(s[1..], i, j);
      assert forall x :: x in s <==> x == s[0] || x in s[1..];
      if s[0] == i || s[0] == j then rest
      else if Distinct(s) then
        DistinctTail(s);
        DistinctPrepend(s[0], rest);
        [s[0]] + rest
      else
        [s[0]] + rest
  }

  /** The tail of a distinct list is distinct and lacks the head. */
  lemma DistinctTail(s: seq<int>)
    requires |s| > 0 && Distinct(s)
    ensures Distinct(s[1..]) && s[0] !in s[1..]
  {
    forall p, q | 0 <= p < q < |s[1..]|
      ensures s[1..][p] != s[1..][q]
    {
      assert s[1..][p] == s[p + 1] && s[1..][q] == s[q + 1];
    }
    forall q | 0 <= q < |s[1..]|
      ensures s[1..][q] != s[0]
    {
      assert s[1..][q] == s[q + 1];
    }
  }

  lemma DistinctPrepend(x: int, s: seq<int>)
    requires Distinct(s) && x !in s
    ensures Distinct([x] + s)
  {
    forall p, q | 0 <= p < q < |[x] + s|
      ensures ([x] + s)[p] != ([x] + s)[q]
    {
      if p == 0 {
        assert ([x] + s)[q] == s[q - 1];
      } else {
        assert ([x] + s)[p] == s[p - 1] && ([x] + s)[q] == s[q - 1];
      }
    }
  }

  /** Taking `i` and `j` off a list of distinct ids takes their sizes off the sum. */
  lemma {:induction false} SumDrop(regions: map<int, Region>, s: seq<int>, i: int, j: int)
    requires forall x :: x in s ==> x in regions
    requires Distinct(s) && i != j
    ensures SizeSum(regions, s) == SizeSum(regions, Drop(s, i, j))
      + (if i in s then regions[i].size else 0) + (if j in s then regions[j].size else 0)
    decreases |s|
  {
    if |s| > 0 {
      assert forall x :: x in s <==> x == s[0] || x in s[1..];
      DistinctTail(s);
      SumDrop(regions, s[1..], i, j);
    }
  }

  /** Appending an id adds its size. */
  lemma {:induction false} SumSnoc(regions: map<int, Region>, s: seq<int>, t: int)
    requires forall x :: x in s ==> x in regions
    requires t in regions
    ensures SizeSum(regions, s + [t]) == SizeSum(regions, s) + regions[t].size
    decreases |s|
  {
    if |s| == 0 {
      assert s + [t] == [t];
    } else {
      assert (s + [t])[1..] == s[1..] + [t];
      SumSnoc(regions, s[1..], t);
    }
  }

  /** Storing a region under an id the list does not name leaves the sum alone. */
  lemma {:induction false} SumUpdate(regions: map<int, Region>, s: seq<int>, t: int, m: Region)
    requires forall x :: x in s ==> x in regions
    requires t !in s
    ensures SizeSum(regions[t := m], s) == SizeSum(regions, s)
    decreases |s|
  {
    if |s| > 0 {
      SumUpdate(regions, s[1..], t, m);
    }
  }

  /** The frontier after a step: the merged pair leaves it and the new region
      joins it at the end. */
  function StepLive(st: State, imsize: int, live: seq<int>): seq<int>
    requires Inv(st, imsize) && |st.edges| > 0
  {
    SelectedInTable(st, imsize);
    Drop(live, Selected(st.edges).a, Selected(st.edges).b) + [NewId(st.table)]
  }

  /** One step keeps a frontier a frontier: the merged region holds exactly
      the pixels and labels of the pair it replaces, and every edge the step
      leaves or adds joins two frontier regions. */
  lemma StepKeepsFrontier(st: State, maxSize: int, imsize: int, live: seq<int>, total: int)
    requires Inv(st, imsize) && |st.edges| > 0
    requires IsFrontier(st, live, total)
    ensures IsFrontier(Step(st, maxSize, imsize), StepLive(st, imsize, live), total)
  {
    SelectedInTable(st, imsize);
    NewIdIsFresh(st.table);
    var i, j := Selected(st.edges).a, Selected(st.edges).b;
    var t := NewId(st.table);
    var m := Merged(st, imsize);
    var r := Step(st, maxSize, imsize);
    var best :| best in st.edges && best.key == Pair(i, j);
    assert i in live && j in live;
    ReplacePair(st.table.regions, live, i, j, t, m);
    forall e | e in r.edges
      ensures e.key.a in StepLive(st, imsize, live) && e.key.b in StepLive(st, imsize, live)
    {
      StepEdgeEnd(st, maxSize, imsize, live, e, e.key.a);
      StepEdgeEnd(st, maxSize, imsize, live, e, e.key.b);
    }
  }

  /** Replacing two regions of a list by their merge under a fresh id keeps
      the ids distinct and the label sets pairwise disjoint, and keeps the
      summed size. */
  lemma ReplacePair(regions: map<int, Region>, live: seq<int>, i: int, j: int, t: int, m: Region)
    requires forall x :: x in live ==> x in regions
    requires Distinct(live) && i in live && j in live && i != j && t !in regions
    requires forall x, y :: x in live && y in live && x != y ==> Disjoint(regions[x].labels, regions[y].labels)
    requires m.labels == regions[i].labels + regions[j].labels
    requires m.size == regions[i].size + regions[j].size
    ensures var live' := Drop(live, i, j) + [t];
      && (forall x :: x in live' ==> x in regions[t := m])
      && Distinct(live')
      && (forall x, y :: x in live' && y in live' && x != y ==>
            Disjoint(regions[t := m][x].labels, regions[t := m][y].labels))
      && SizeSum(regions[t := m], live') == SizeSum(regions, live)
  {
    var kept := Drop(live, i, j);
    var live' := kept + [t];
    var regions' := regions[t := m];
    assert t !in kept;
    assert Distinct(live') by {
      forall p, q | 0 <= p < q < |live'|
        ensures live'[p] != live'[q]
      {
        if q == |kept| {
          assert live'[p] == kept[p];
          assert kept[p] in kept;
        } else {
          assert live'[p] == kept[p] && live'[q] == kept[q];
        }
      }
    }
    forall x, y | x in live' && y in live' && x != y
      ensures Disjoint(regions'[x].labels, regions'[y].labels)
    {
      if x == t {
        DisjointConcat(regions[y].labels, regions[i].labels, regions[j].labels);
      } else if y == t {
        DisjointConcat(regions[x].labels, regions[i].labels, regions[j].labels);
      }
    }
    SumSnoc(regions', kept, t);
    SumUpdate(regions, kept, t, m);
    SumDrop(regions, live, i, j);
  }

  /** Both ends of an edge left after a step are on the new frontier: the
      step retires every edge of the pair, a region without edges gets none
      back, and the new edges start at the new region. */
  lemma StepEdgeEnd(st: State, maxSize: int, imsize: int, live: seq<int>, e: Edge, y: int)
    requires Inv(st, imsize) && |st.edges| > 0
    requires forall e :: e in st.edges ==> e.key.a in live && e.key.b in live
    requires e in Step(st, maxSize, imsize).edges && Mentions(e.key, y)
    ensures |st.table.ids| > 0
    ensures y == NewId(st.table) || (y in live && y != Selected(st.edges).a && y != Selected(st.edges).b)
  {
    SelectedInTable(st, imsize);
    StepRetiresMerged(st, maxSize, imsize);
    if y != NewId(st.table) && y !in live {
      StepKeepsRetired(st, maxSize, imsize, y);
      assert false;
    }
  }

  /** A list disjoint from two lists is disjoint from their concatenation, in
      both directions. */
  lemma DisjointConcat(z: seq<int>, a: seq<int>, b: seq<int>)
    requires Disjoint(z, a) && Disjoint(z, b)
    ensures Disjoint(z, a + b) && Disjoint(a + b, z)
  {
  }

  /** The merge loop keeps a frontier: the ids it ends with hold the same
      pixels in disjoint label sets, and a region consumed before the loop
      stays consumed. */
  function AgglomerateLive(st: State, maxSize: int, imsize: int, live: seq<int>, total: int): (r: seq<int>)
    requires Inv(st, imsize)
    requires IsFrontier(st, live, total)
    ensures IsFrontier(Agglomerate(st, maxSize, imsize), r, total)
    ensures forall x :: x in r && x in st.table.regions ==> x in live
    decreases |st.edges|
  {
    if |st.edges| == 0 then live
    else
      StepKeepsFrontier(st, maxSize, imsize, live, total);
      SelectedInTable(st, imsize);
      NewIdIsFresh(st.table);
      AgglomerateLive(Step(st, maxSize, imsize), maxSize, imsize, StepLive(st, imsize, live), total)
  }
}

=== FILE: geometry.dfy ===
/** Axis-aligned integer boxes: the geometry every region carries, the union a
    merge takes, and the corner test that decides which initial regions are
    neighbours. */
module Geometry {

  /** A bounding box `(min_x, min_y, max_x, max_y)` in pixel coordinates. */
  datatype Box = Box(minX: int, minY: int, maxX: int, maxY: int)

  function Min(a: int, b: int): (m: int)
    ensures m <= a && m <= b
    ensures m == a || m == b
  {
    if b < a then b else a
  }

  function Max(a: int, b: int): (m: int)
    ensures a <= m && b <= m
    ensures m == a || m == b
  {
    if a < b then b else a
  }

  /** `(max_x - min_x) * (max_y - min_y)`, the quantity stored as `bbox_size`.
      It does not count the last row and column, so a one-pixel box has area 0. */
  function Area(b: Box): int
  {
    (b.maxX - b.minX) * (b.maxY - b.minY)
  }

  predicate Ordered(b: Box)
  {
    b.minX <= b.maxX && b.minY <= b.maxY
  }

  predicate Encloses(outer: Box, inner: Box)
  {
    && outer.minX <= inner.minX && inner.maxX <= outer.maxX
    && outer.minY <= inner.minY && inner.maxY <= outer.maxY
  }

  /** The box lies inside the image `[0, xLim] x [0, yLim]`. */
  predicate Within(b: Box, xLim: int, yLim: int)
  {
    0 <= b.minX && b.maxX <= xLim && 0 <= b.minY && b.maxY <= yLim
  }

  /** Componentwise min/max of the corners: the smallest box holding both. */
  function Union(a: Box, b: Box): (u: Box)
    ensures Encloses(u, a) && Encloses(u, b)
    ensures forall c :: Encloses(c, a) && Encloses(c, b) ==> Encloses(c, u)
  {
    Box(Min(a.minX, b.minX), Min(a.minY, b.minY), Max(a.maxX, b.maxX), Max(a.maxY, b.maxY))
  }

  lemma UnionCommutes(a: Box, b: Box)
    ensures Union(a, b) == Union(b, a)
  {
  }

  /** The union of two boxes inside the image is inside the image. */
  lemma UnionWithin(a: Box, b: Box, xLim: int, yLim: int)
    requires Within(a, xLim, yLim) && Within(b, xLim, yLim)
    ensures Within(Union(a, b), xLim, yLim)
  {
  }

  lemma MulMonotone(a: int, b: int, c: int, d: int)
    requires 0 <= a <= c && 0 <= b <= d
    ensures a * b <= c * d
  {
    assert a * b <= c * b;
    assert c * b <= c * d;
  }

  /** A box never has a smaller area than an ordered box it encloses. */
  lemma AreaMonotone(outer: Box, inner: Box)
    requires Ordered(inner) && Encloses(outer, inner)
    ensures 0 <= Area(inner) <= Area(outer)
  {
    MulMonotone(inner.maxX - inner.minX, inner.maxY - inner.minY,
                outer.maxX - outer.minX, outer.maxY - outer.minY);
  }

  /** An ordered box inside the image has an area of at most the image's. */
  lemma AreaWithin(b: Box, xLim: int, yLim: int)
    requires Ordered(b) && Within(b, xLim, yLim)
    ensures 0 <= Area(b) <= xLim * yLim
  {
    AreaMonotone(Box(0, 0, xLim, yLim), b);
  }

  /** The point `(x, y)` lies strictly inside `a`. */
  predicate StrictlyInside(a: Box, x: int, y: int)
  {
    a.minX < x < a.maxX && a.minY < y < a.maxY
  }

  /** The neighbour test: one of the four corners of `b` lies strictly inside
      `a`. Only `b`'s corners are tried, never `a`'s. */
  predicate CornerInside(a: Box, b: Box)
  {
    || StrictlyInside(a, b.minX, b.minY)
    || StrictlyInside(a, b.maxX, b.maxY)
    || StrictlyInside(a, b.minX, b.maxY)
    || StrictlyInside(a, b.maxX, b.minY)
  }

  /** The two closed boxes share at least one point. */
  predicate Overlap(a: Box, b: Box)
  {
    a.minX <= b.maxX && b.minX <= a.maxX && a.minY <= b.maxY && b.minY <= a.maxY
  }

  /** The four corner cases factor into one x-condition and one y-condition. */
  lemma CornerInsideFactors(a: Box, b: Box)
    ensures CornerInside(a, b) <==>
      && (a.minX < b.minX < a.maxX || a.minX < b.maxX < a.maxX)
      && (a.minY < b.minY < a.maxY || a.minY < b.maxY < a.maxY)
  {
  }

  /** The test is sound: boxes it accepts do overlap. */
  lemma CornerInsideOverlaps(a: Box, b: Box)
    requires Ordered(b) && CornerInside(a, b)
    ensures Overlap(a, b)
  {
  }

  /** A box strictly inside another is found only when it is the later one. */
  lemma CornerInsideIsOneDirectional()
    ensures CornerInside(Box(0, 0, 10, 10), Box(2, 2, 5, 5))
    ensures !CornerInside(Box(2, 2, 5, 5), Box(0, 0, 10, 10))
  {
  }

  /** The test is not complete: two crossing bars overlap, yet neither has a
      corner inside the other. */
  lemma CrossingBoxesAreMissed()
    ensures Overlap(Box(0, 4, 10, 6), Box(4, 0, 6, 10))
    ensures !CornerInside(Box(0, 4, 10, 6), Box(4, 0, 6, 10))
    ensures !CornerInside(Box(4, 0, 6, 10), Box(0, 4, 10, 6))
  {
  }
}

=== FILE: histograms.dfy ===
/** Per-region histograms as exact rationals: their mass, the size-weighted
    average a merge takes, and the intersection the colour and texture
    similarities sum. Binning the pixels is not part of this model; the
    histograms come in as values. */
module Histograms {

  /** 25 colour bins for each of the three HSV channels. */
  const ColourBins: nat := 25
  /** 10 texture bins for each of the three channels. */
  const TextureBins: nat := 10
  const Channels: nat := 3
  const ColourHistLength: nat := ColourBins * Channels
  const TextureHistLength: nat := TextureBins * Channels

  function Sum(h: seq<real>): real
  {
    if |h| == 0 then 0.0 else h[0] + Sum(h[1..])
  }

  predicate NonNegative(h: seq<real>)
  {
    forall k :: 0 <= k < |h| ==> 0.0 <= h[k]
  }

  /** `(h1 * s1 + h2 * s2) / (s1 + s2)`, elementwise: the histogram of a merged
      region, weighted by the two parents' sizes. */
  function Blend(h1: seq<real>, s1: real, h2: seq<real>, s2: real): (h: seq<real>)
    requires |h1| == |h2|
    requires s1 + s2 != 0.0
    ensures |h| == |h1|
    ensures forall k :: 0 <= k < |h| ==> h[k] * (s1 + s2) == h1[k] * s1 + h2[k] * s2
  {
    seq(|h1|, k requires 0 <= k < |h1| => (h1[k] * s1 + h2[k] * s2) / (s1 + s2))
  }

  lemma BlendTail(h1: seq<real>, s1: real, h2: seq<real>, s2: real)
    requires |h1| == |h2| > 0
    requires s1 + s2 != 0.0
    ensures Blend(h1, s1, h2, s2)[1..] == Blend(h1[1..], s1, h2[1..], s2)
  {
    var h, t := Blend(h1, s1, h2, s2), Blend(h1[1..], s1, h2[1..], s2);
    forall k | 0 <= k < |t|
      ensures h[1..][k] == t[k]
    {
      assert h[k + 1] == (h1[k + 1] * s1 + h2[k + 1] * s2) / (s1 + s2);
    }
  }

  /** `m` is the mean of `a` and `b` weighted by `s1` and `s2`. */
  predicate WeightedMean(m: real, a: real, s1: real, b: real, s2: real)
  {
    m * (s1 + s2) == a * s1 + b * s2
  }

  /** The merged histogram carries the size-weighted mass of its parents. */
  lemma {:induction false} BlendMass(h1: seq<real>, s1: real, h2: seq<real>, s2: real)
    requires |h1| == |h2|
    requires s1 + s2 != 0.0
    ensures WeightedMean(Sum(Blend(h1, s1, h2, s2)), Sum(h1), s1, Sum(h2), s2)
    decreases |h1|
  {
    var h := Blend(h1, s1, h2, s2);
    if |h1| > 0 {
      BlendTail(h1, s1, h2, s2);
      BlendMass(h1[1..], s1, h2[1..], s2);
      var w := s1 + s2;
      assert h[0] * w == h1[0] * s1 + h2[0] * s2;
      Distribute(h[0], Sum(h[1..]), w);
      Distribute(h1[0], Sum(h1[1..]), s1);
      Distribute(h2[0], Sum(h2[1..]), s2);
    }
  }

  lemma Distribute(x: real, y: real, z: real)
    ensures (x + y) * z == x * z + y * z
  {
  }

  /** Merging two histograms of the same mass keeps that mass. */
  lemma BlendKeepsMass(h1: seq<real>, s1: real, h2: seq<real>, s2: real, mass: real)
    requires |h1| == |h2|
    requires s1 + s2 != 0.0
    requires Sum(h1) == mass && Sum(h2) == mass
    ensures Sum(Blend(h1, s1, h2, s2)) == mass
  {
    BlendMass(h1, s1, h2, s2);
    CommonMean(Sum(Blend(h1, s1, h2, s2)), Sum(h1), s1, Sum(h2), s2);
  }

  /** A weighted mean of two equal values is that value. */
  lemma CommonMean(m: real, a: real, s1: real, b: real, s2: real)
    requires s1 + s2 != 0.0
    requires WeightedMean(m, a, s1, b, s2)
    requires a == b
    ensures m == a
  {
    assert (m - a) * (s1 + s2) == 0.0;
  }

  /** With positive weights, a weighted mean lies between any common bounds of
      the two values. */
  lemma MeanWithin(m: real, a: real, s1: real, b: real, s2: real, lo: real, hi: real)
    requires s1 > 0.0 && s2 > 0.0
    requires WeightedMean(m, a, s1, b, s2)
    requires lo <= a <= hi && lo <= b <= hi
    ensures lo <= m <= hi
  {
    ProductSign(a - lo, s1);
    ProductSign(b - lo, s2);
    ProductSign(hi - a, s1);
    ProductSign(hi - b, s2);
    assert (m - lo) * (s1 + s2) == (a - lo) * s1 + (b - lo) * s2;
    assert (hi - m) * (s1 + s2) == (hi - a) * s1 + (hi - b) * s2;
    ProductSign(m - lo, s1 + s2);
    ProductSign(hi - m, s1 + s2);
  }

  /** With a positive factor `w`, `x * w` has the sign of `x`. */
  lemma ProductSign(x: real, w: real)
    requires w > 0.0
    ensures x >= 0.0 <==> x * w >= 0.0
  {
  }

  /** Merging with positive weights keeps every bin non-negative. */
  lemma BlendNonNegative(h1: seq<real>, s1: real, h2: seq<real>, s2: real)
    requires |h1| == |h2|
    requires s1 > 0.0 && s2 > 0.0
    requires NonNegative(h1) && NonNegative(h2)
    ensures NonNegative(Blend(h1, s1, h2, s2))
  {
    var h := Blend(h1, s1, h2, s2);
    forall k | 0 <= k < |h|
      ensures 0.0 <= h[k]
    {
      assert h[k] * (s1 + s2) >= 0.0;
    }
  }

  lemma {:induction false} SumConcat(a: seq<real>, b: seq<real>)
    ensures Sum(a + b) == Sum(a) + Sum(b)
    decreases |a|
  {
    if |a| == 0 {
      assert a + b == b;
    } else {
      assert (a + b)[1..] == a[1..] + b;
      SumConcat(a[1..], b);
    }
  }

  /** The bins of channel `c` in a histogram of `bins` bins per channel, the
      channels one after the other. */
  function Block(h: seq<real>, bins: nat, c: nat): (b: seq<real>)
    requires |h| == bins * Channels && c < Channels
    ensures |b| == bins
  {
    assert c == 0 || c == 1 || c == 2;
    h[c * bins..(c + 1) * bins]
  }

  /** Every channel block of `h` has a mass between `lo` and `hi`. */
  predicate BlockMasses(h: seq<real>, bins: nat, lo: real, hi: real)
  {
    && |h| == bins * Channels
    && forall c :: 0 <= c < Channels ==> lo <= Sum(Block(h, bins, c)) <= hi
  }

  /** The colour histogram of `_calc_colour_hist`: every HSV value of the
      region's pixels falls in the binning range, so after the division by
      the pixel count each of the three channel blocks has mass 1. */
  predicate ColourNormalised(h: seq<real>)
  {
    NonNegative(h) && BlockMasses(h, ColourBins, 1.0, 1.0)
  }

  /** The texture histogram of `_calc_texture_hist`: the same division, but
      gradient values outside the binning range `[0, 1]` are not counted, so
      each channel block has mass at most 1. */
  predicate TextureNormalised(h: seq<real>)
  {
    NonNegative(h) && BlockMasses(h, TextureBins, 0.0, 1.0)
  }

  /** The mass of the whole histogram is the sum of its three blocks' masses. */
  lemma BlockMassesSum(h: seq<real>, bins: nat, lo: real, hi: real)
    requires BlockMasses(h, bins, lo, hi)
    ensures 3.0 * lo <= Sum(h) <= 3.0 * hi
  {
    var b0, b1, b2 := Block(h, bins, 0), Block(h, bins, 1), Block(h, bins, 2);
    assert h == b0 + b1 + b2;
    SumConcat(b0 + b1, b2);
    SumConcat(b0, b1);
  }

  /** Blending works slice by slice. */
  lemma BlendSlice(h1: seq<real>, s1: real, h2: seq<real>, s2: real, from: nat, to: nat)
    requires |h1| == |h2| && from <= to <= |h1|
    requires s1 + s2 != 0.0
    ensures Blend(h1, s1, h2, s2)[from..to] == Blend(h1[from..to], s1, h2[from..to], s2)
  {
    var l, r := Blend(h1, s1, h2, s2)[from..to], Blend(h1[from..to], s1, h2[from..to], s2);
    forall k | 0 <= k < to - from
      ensures l[k] == r[k]
    {
      assert h1[from..to][k] == h1[from + k] && h2[from..to][k] == h2[from + k];
    }
  }

  /** Blending works block by block. */
  lemma BlendBlock(h1: seq<real>, s1: real, h2: seq<real>, s2: real, bins: nat, c: nat)
    requires |h1| == |h2| == bins * Channels && c < Channels
    requires s1 + s2 != 0.0
    ensures Block(Blend(h1, s1, h2, s2), bins, c) == Blend(Block(h1, bins, c), s1, Block(h2, bins, c), s2)
  {
    assert c == 0 || c == 1 || c == 2;
    BlendSlice(h1, s1, h2, s2, c * bins, (c + 1) * bins);
  }

  /** Merging two histograms whose blocks' masses share bounds keeps those
      bounds on every block. */
  lemma BlendKeepsBlockMasses(h1: seq<real>, s1: real, h2: seq<real>, s2: real, bins: nat, lo: real, hi: real)
    requires s1 > 0.0 && s2 > 0.0
    requires BlockMasses(h1, bins, lo, hi) && BlockMasses(h2, bins, lo, hi)
    ensures BlockMasses(Blend(h1, s1, h2, s2), bins, lo, hi)
  {
    var h := Blend(h1, s1, h2, s2);
    forall c | 0 <= c < Channels
      ensures lo <= Sum(Block(h, bins, c)) <= hi
    {
      var a, b := Block(h1, bins, c), Block(h2, bins, c);
      BlendBlock(h1, s1, h2, s2, bins, c);
      BlendMass(a, s1, b, s2);
      MeanWithin(Sum(Block(h, bins, c)), Sum(a), s1, Sum(b), s2, lo, hi);
    }
  }

  /** Histogram intersection: the sum of pairwise minima over the bins both
      histograms have (a shorter histogram truncates the pairing). */
  function Intersection(h1: seq<real>, h2: seq<real>): real
    decreases |h1|
  {
    if |h1| == 0 || |h2| == 0 then 0.0
    else (if h2[0] < h1[0] then h2[0] else h1[0]) + Intersection(h1[1..], h2[1..])
  }

  lemma {:induction false} IntersectionSymmetric(h1: seq<real>, h2: seq<real>)
    ensures Intersection(h1, h2) == Intersection(h2, h1)
    decreases |h1|
  {
    if |h1| > 0 && |h2| > 0 {
      IntersectionSymmetric(h1[1..], h2[1..]);
    }
  }

  lemma {:induction false} SumNonNegative(h: seq<real>)
    requires NonNegative(h)
    ensures 0.0 <= Sum(h)
    decreases |h|
  {
    if |h| > 0 {
      SumNonNegative(h[1..]);
    }
  }

  /** For non-negative histograms the intersection lies between 0 and the
      mass of either histogram. */
  lemma {:induction false} IntersectionBounds(h1: seq<real>, h2: seq<real>)
    requires NonNegative(h1) && NonNegative(h2)
    ensures 0.0 <= Intersection(h1, h2)
    ensures Intersection(h1, h2) <= Sum(h1)
    ensures Intersection(h1, h2) <= Sum(h2)
    decreases |h1|
  {
    if |h1| == 0 {
      SumNonNegative(h2);
    } else if |h2| == 0 {
      SumNonNegative(h1);
    } else {
      IntersectionBounds(h1[1..], h2[1..]);
    }
  }

  /** Identical histograms intersect in their whole mass. */
  lemma {:induction false} IntersectionSelf(h: seq<real>)
    ensures Intersection(h, h) == Sum(h)
    decreases |h|
  {
    if |h| > 0 {
      IntersectionSelf(h[1..]);
    }
  }
}

=== FILE: merge_loop.dfy ===
/** The greedy hierarchical merge: the initial similarity map, the optional
    pre-pruning of oversized regions, and the loop that merges the best pair,
    gives the result a fresh id, retires every edge of the two parents and
    reconnects the result to their former neighbours unless it is too large. */
module MergeLoop {
  import opened Geometry
  import opened Regions
  import opened Similarity
  import opened Edges
  import opened Neighbours

  /** The region table `R` and the similarity map `S`. */
  datatype State = State(table: Table, edges: seq<Edge>)

  /** An edge joins two distinct regions of the table and carries their
      current similarity. */
  predicate Scored(regions: map<int, Region>, e: Edge, imsize: int)
  {
    && e.key.a != e.key.b
    && e.key.a in regions && e.key.b in regions
    && imsize > 0
    && e.score == CalcSim(regions[e.key.a], regions[e.key.b], imsize)
  }

  predicate AllWellFormed(regions: map<int, Region>)
  {
    forall id :: id in regions ==> WellFormed(regions[id])
  }

  /** Never both `(a, b)` and `(b, a)`. */
  predicate NoFlips(s: seq<Edge>)
  {
    forall e, f :: e in s && f in s ==> e.key != Flip(f.key)
  }

  predicate AllScored(regions: map<int, Region>, s: seq<Edge>, imsize: int)
  {
    forall e :: e in s ==> Scored(regions, e, imsize)
  }

  /** The loop invariant: a valid table of well-formed regions and a
      dictionary of scored edges without flipped keys. */
  predicate Inv(st: State, imsize: int)
  {
    && TableValid(st.table)
    && AllWellFormed(st.table.regions)
    && KeysDistinct(st.edges)
    && NoFlips(st.edges)
    && AllScored(st.table.regions, st.edges, imsize)
  }

  /** `S[(ai, bi)] = _calc_sim(ar, br, imsize)` for every neighbour pair, keyed
      by the regions' ids. */
  function InitialEdges(t: Table, pairs: seq<Pair>, imsize: int): (s: seq<Edge>)
    requires TableValid(t)
    requires forall k :: 0 <= k < |pairs| ==> 0 <= pairs[k].a < pairs[k].b < |t.ids|
    requires forall k, m :: 0 <= k < m < |pairs| ==> pairs[k] != pairs[m]
    requires |pairs| > 0 ==> imsize > 0
    requires AllWellFormed(t.regions)
    ensures |s| == |pairs|
    ensures forall k :: 0 <= k < |pairs| ==> s[k].key == Pair(t.ids[pairs[k].a], t.ids[pairs[k].b])
    ensures Inv(State(t, s), imsize)
  {
    var s := seq(|pairs|, k requires 0 <= k < |pairs| =>
      Edge(Pair(t.ids[pairs[k].a], t.ids[pairs[k].b]), CalcSim(At(t, pairs[k].a), At(t, pairs[k].b), imsize)));
    InitialEdgesInv(t, pairs, imsize, s);
    s
  }

  lemma InitialEdgesInv(t: Table, pairs: seq<Pair>, imsize: int, s: seq<Edge>)
    requires TableValid(t)
    requires forall k :: 0 <= k < |pairs| ==> 0 <= pairs[k].a < pairs[k].b < |t.ids|
    requires forall k, m :: 0 <= k < m < |pairs| ==> pairs[k] != pairs[m]
    requires |pairs| > 0 ==> imsize > 0
    requires AllWellFormed(t.regions)
    requires |s| == |pairs|
    requires forall k :: 0 <= k < |pairs| ==>
      s[k] == Edge(Pair(t.ids[pairs[k].a], t.ids[pairs[k].b]), CalcSim(At(t, pairs[k].a), At(t, pairs[k].b), imsize))
    ensures Inv(State(t, s), imsize)
  {
    forall k, m | 0 <= k < m < |s|
      ensures s[k].key != s[m].key
    {
      IdsInjective(t, pairs[k].a, pairs[m].a);
      IdsInjective(t, pairs[k].b, pairs[m].b);
    }
    forall e, f | e in s && f in s
      ensures e.key != Flip(f.key)
    {
      var k :| 0 <= k < |s| && s[k] == e;
      var m :| 0 <= m < |s| && s[m] == f;
      IdsInjective(t, pairs[k].a, pairs[m].b);
    }
    forall e | e in s
      ensures Scored(t.regions, e, imsize)
    {
      var k :| 0 <= k < |s| && s[k] == e;
      assert t.ids[pairs[k].a] in t.ids && t.ids[pairs[k].b] in t.ids;
      assert t.ids[pairs[k].a] != t.ids[pairs[k].b];
    }
  }

  /** Distinct positions of the table hold distinct ids. */
  lemma IdsInjective(t: Table, x: int, y: int)
    requires TableValid(t) && 0 <= x < |t.ids| && 0 <= y < |t.ids|
    ensures t.ids[x] == t.ids[y] ==> x == y
  {
  }

  function MaxOf(s: seq<int>): (m: int)
    requires |s| > 0
    ensures m in s
    ensures forall k :: 0 <= k < |s| ==> s[k] <= m
    decreases |s|
  {
    if |s| == 1 then s[0]
    else
      var m0 := MaxOf(s[1..]);
      assert forall k :: 1 <= k < |s| ==> s[k] == s[1..][k - 1];
      if s[0] < m0 then m0 else s[0]
  }

  /** `max(R.keys()) + 1`: an id above every id in the table. */
  function NewId(t: Table): (id: int)
    requires |t.ids| > 0
    ensures forall k :: 0 <= k < |t.ids| ==> t.ids[k] < id
    ensures id - 1 in t.ids
  {
    MaxOf(t.ids) + 1
  }

  /** The key of the edge the loop merges next. */
  function Selected(s: seq<Edge>): Pair
    requires |s| > 0
  {
    s[BestIndex(s)].key
  }

  /** `_merge_regions(R[i], R[j])` for the selected key `(i, j)`. */
  function Merged(st: State, imsize: int): (m: Region)
    requires Inv(st, imsize) && |st.edges| > 0
    ensures WellFormed(m)
  {
    SelectedInTable(st, imsize);
    Merge(st.table.regions[Selected(st.edges).a], st.table.regions[Selected(st.edges).b])
  }

  /** The edges of `i` or `j`: those the step retires (`key_to_delete`). */
  function Touching(s: seq<Edge>, i: int, j: int): (r: seq<Edge>)
    ensures forall e :: e in r <==> e in s && Touches(e.key, i, j)
  {
    Filter(s, (e: Edge) => Touches(e.key, i, j))
  }

  /** The edges of neither `i` nor `j`: those the step keeps. */
  function Untouched(s: seq<Edge>, i: int, j: int): (r: seq<Edge>)
    ensures forall e :: e in r <==> e in s && !Touches(e.key, i, j)
    ensures KeysDistinct(s) ==> KeysDistinct(r)
  {
    Filter(s, (e: Edge) => !Touches(e.key, i, j))
  }

  lemma TouchingSplit(s: seq<Edge>, i: int, j: int)
    ensures |Touching(s, i, j)| + |Untouched(s, i, j)| == |s|
  {
    FilterSplit(s, (e: Edge) => Touches(e.key, i, j), (e: Edge) => !Touches(e.key, i, j));
  }

  /** The neighbour that a retired key `k` of `i` or `j` names. */
  function Other(k: Pair, i: int, j: int): int
  {
    if k.a == i || k.a == j then k.b else k.a
  }

  /** `[a for a in key_to_delete if a != (i, j)]`. */
  function WithoutPair(ks: seq<Pair>, ij: Pair): (r: seq<Pair>)
    ensures forall k :: k in r <==> k in ks && k != ij
    ensures ij in ks ==> |r| < |ks|
    ensures |r| <= |ks|
    decreases |ks|
  {
    if |ks| == 0 then []
    else
      var rest := WithoutPair(ks[1..], ij);
      assert forall k :: k in ks <==> k == ks[0] || k in ks[1..];
      if ks[0] == ij then rest else [ks[0]] + rest
  }

  /** The keys `(t, n)` for the neighbours `n` that the keys in `ks` name. */
  function NewKeys(ks: seq<Pair>, i: int, j: int, t: int): set<Pair>
  {
    set k | k in ks :: Pair(t, Other(k, i, j))
  }

  /** An edge `(t, n)` carrying the score of `t` against a region `n` that
      some key of `ks` names. */
  predicate Joins(e: Edge, ks: seq<Pair>, i: int, j: int, t: int, regions: map<int, Region>, imsize: int)
  {
    && e.key.a == t && t in regions && e.key.b in regions
    && (exists k :: k in ks && e.key.b == Other(k, i, j))
    && imsize > 0
    && e.score == CalcSim(regions[t], regions[e.key.b], imsize)
  }

  /** `S[(t, n)] = _calc_sim(R[t], R[n], imsize)` for each key in `ks`, in order. */
  function Reconnect(s: seq<Edge>, ks: seq<Pair>, i: int, j: int, t: int,
                     regions: map<int, Region>, imsize: int): (r: seq<Edge>)
    requires imsize > 0 && t in regions
    requires forall k :: k in ks ==> Other(k, i, j) in regions
    ensures forall e :: e in r ==> e in s || Joins(e, ks, i, j, t, regions, imsize)
    ensures forall e :: e in s && e.key.a != t ==> e in r
    ensures KeySet(r) == KeySet(s) + NewKeys(ks, i, j, t)
    ensures KeysDistinct(s) ==> KeysDistinct(r)
    ensures |r| <= |s| + |ks|
    ensures |s| <= |r|
    ensures forall p :: 0 <= p < |s| ==> r[p].key == s[p].key
    ensures forall p :: 0 <= p < |s| && s[p].key.a != t ==> r[p] == s[p]
    ensures forall p :: |s| <= p < |r| ==> r[p].key.a == t
    decreases |ks|
  {
    if |ks| == 0 then
      assert NewKeys(ks, i, j, t) == {};
      s
    else
      var n := Other(ks[0], i, j);
      var s' := Put(s, Pair(t, n), CalcSim(regions[t], regions[n], imsize));
      assert forall k :: k in ks <==> k == ks[0] || k in ks[1..];
      assert NewKeys(ks, i, j, t) == {Pair(t, n)} + NewKeys(ks[1..], i, j, t);
      Reconnect(s', ks[1..], i, j, t, regions, imsize)
  }

  /** The selected key names two distinct regions of a non-empty table. */
  lemma SelectedInTable(st: State, imsize: int)
    requires Inv(st, imsize) && |st.edges| > 0
    ensures |st.table.ids| > 0 && imsize > 0
    ensures Selected(st.edges).a in st.table.regions && Selected(st.edges).b in st.table.regions
    ensures Selected(st.edges).a != Selected(st.edges).b
    ensures Selected(st.edges) in KeySet(st.edges)
  {
    var best := st.edges[BestIndex(st.edges)];
    assert best in st.edges && Scored(st.table.regions, best, imsize);
    assert best.key.a in st.table.ids;
  }

  /** The new id names no region of the table yet. */
  lemma NewIdIsFresh(t: Table)
    requires TableValid(t) && |t.ids| > 0
    ensures NewId(t) !in t.regions
  {
  }

  /** `R[t] = merged` for a fresh `t` keeps the table valid and extends it. */
  lemma GrowTable(t: Table, id: int, m: Region)
    requires TableValid(t) && AllWellFormed(t.regions) && WellFormed(m)
    requires id !in t.regions
    ensures TableValid(Table(t.ids + [id], t.regions[id := m]))
    ensures AllWellFormed(t.regions[id := m])
    ensures Extends(t, Table(t.ids + [id], t.regions[id := m]))
  {
    var ids := t.ids + [id];
    forall p, q | 0 <= p < q < |ids|
      ensures ids[p] != ids[q]
    {
      if q == |t.ids| {
        assert ids[p] == t.ids[p] && t.ids[p] in t.ids;
      }
    }
  }

  /** Keeping a subset of the edges over a table that extends the old one
      keeps the invariant. */
  lemma KeepEdgesInv(st: State, imsize: int, table: Table, kept: seq<Edge>)
    requires Inv(st, imsize)
    requires TableValid(table) && AllWellFormed(table.regions) && Extends(st.table, table)
    requires KeysDistinct(kept)
    requires forall e :: e in kept ==> e in st.edges
    ensures Inv(State(table, kept), imsize)
  {
    forall e | e in kept
      ensures Scored(table.regions, e, imsize)
    {
      assert Scored(st.table.regions, e, imsize);
    }
  }

  /** The retired keys are the keys of `i` or `j`; each except `(i, j)` itself
      names a third region of the table. */
  lemma RetiredKeys(st: State, imsize: int, i: int, j: int, doomed: seq<Pair>)
    requires Inv(st, imsize) && |st.edges| > 0
    requires Pair(i, j) == Selected(st.edges)
    requires doomed == KeysOf(Touching(st.edges, i, j))
    ensures forall k :: k in doomed <==> k in KeySet(st.edges) && Touches(k, i, j)
    ensures forall k :: k in doomed && k != Pair(i, j) ==>
      && Other(k, i, j) in st.table.regions
      && Other(k, i, j) != i && Other(k, i, j) != j
  {
    TouchingKeys(st.edges, i, j, doomed);
    forall k | k in doomed && k != Pair(i, j)
      ensures Other(k, i, j) in st.table.regions && Other(k, i, j) != i && Other(k, i, j) != j
    {
      ThirdRegion(st, imsize, i, j, k);
    }
  }

  lemma TouchingKeys(s: seq<Edge>, i: int, j: int, doomed: seq<Pair>)
    requires doomed == KeysOf(Touching(s, i, j))
    ensures forall k :: k in doomed <==> k in KeySet(s) && Touches(k, i, j)
  {
    var touching := Touching(s, i, j);
    forall k
      ensures k in doomed <==> k in KeySet(s) && Touches(k, i, j)
    {
      if k in doomed {
        var p :| 0 <= p < |doomed| && doomed[p] == k;
        assert touching[p] in touching;
      }
      if k in KeySet(s) && Touches(k, i, j) {
        var e :| e in s && e.key == k;
        var p :| 0 <= p < |touching| && touching[p] == e;
        assert doomed[p] == k;
      }
    }
  }

  lemma ThirdRegion(st: State, imsize: int, i: int, j: int, k: Pair)
    requires Inv(st, imsize) && |st.edges| > 0
    requires Pair(i, j) == Selected(st.edges)
    requires k in KeySet(st.edges) && Touches(k, i, j) && k != Pair(i, j)
    ensures Other(k, i, j) in st.table.regions && Other(k, i, j) != i && Other(k, i, j) != j
  {
    var best := st.edges[BestIndex(st.edges)];
    assert best in st.edges;
    var e :| e in st.edges && e.key == k;
    assert Scored(st.table.regions, e, imsize) && Scored(st.table.regions, best, imsize);
    assert e.key != Flip(best.key);
  }

  /** Adding the keys `(t, n)` for third regions `n`, where `t` is a region no
      kept edge names, keeps the invariant. */
  lemma ReconnectKeepsInv(table: Table, kept: seq<Edge>, ks: seq<Pair>, i: int, j: int, t: int, imsize: int)
    requires Inv(State(table, kept), imsize) && imsize > 0
    requires t in table.regions
    requires forall e :: e in kept ==> !Mentions(e.key, t)
    requires forall k :: k in ks ==> Other(k, i, j) in table.regions && Other(k, i, j) != t
    ensures Inv(State(table, Reconnect(kept, ks, i, j, t, table.regions, imsize)), imsize)
  {
    var r := Reconnect(kept, ks, i, j, t, table.regions, imsize);
    forall e | e in r
      ensures Scored(table.regions, e, imsize) && (e !in kept ==> e.key.a == t && e.key.b != t)
    {
      if e !in kept {
        var k :| k in ks && e.key.b == Other(k, i, j);
      }
    }
    forall e, f | e in r && f in r
      ensures e.key != Flip(f.key)
    {
    }
  }

  /** One iteration of the merge loop: merge the best pair into a fresh id,
      retire every key of either parent, and unless the result is over the
      cap, score it against each former neighbour. */
  function Step(st: State, maxSize: int, imsize: int): (r: State)
    requires Inv(st, imsize) && |st.edges| > 0
    ensures Inv(r, imsize)
    ensures |r.edges| < |st.edges|
    ensures Extends(st.table, r.table)
    ensures |st.table.ids| > 0 && r.table.ids == st.table.ids + [NewId(st.table)]
    ensures Selected(st.edges).a in st.table.regions && Selected(st.edges).b in st.table.regions
    ensures r.table.regions == st.table.regions[NewId(st.table) := Merged(st, imsize)]
  {
    SelectedInTable(st, imsize);
    var ij := Selected(st.edges);
    var i, j := ij.a, ij.b;
    var t := NewId(st.table);
    var merged := Merged(st, imsize);
    NewIdIsFresh(st.table);
    GrowTable(st.table, t, merged);
    var table := Table(st.table.ids + [t], st.table.regions[t := merged]);
    var doomed := KeysOf(Touching(st.edges, i, j));
    var kept := Untouched(st.edges, i, j);
    TouchingSplit(st.edges, i, j);
    RetiredKeys(st, imsize, i, j, doomed);
    KeepEdgesInv(st, imsize, table, kept);
    if merged.bboxSize > maxSize then State(table, kept)
    else
      var ks := WithoutPair(doomed, ij);
      KeptAvoidsFresh(st, imsize, kept, t);
      ReconnectKeepsInv(table, kept, ks, i, j, t, imsize);
      State(table, Reconnect(kept, ks, i, j, t, table.regions, imsize))
  }

  /** No old edge names an id outside the table. */
  lemma KeptAvoidsFresh(st: State, imsize: int, kept: seq<Edge>, t: int)
    requires Inv(st, imsize)
    requires t !in st.table.regions
    requires forall e :: e in kept ==> e in st.edges
    ensures forall e :: e in kept ==> !Mentions(e.key, t)
  {
    forall e | e in kept
      ensures !Mentions(e.key, t)
    {
      assert Scored(st.table.regions, e, imsize);
    }
  }

  /** The step's map: the parents' edges gone, and the reconnected keys added
      unless the result is over the cap. */
  lemma StepEdges(st: State, maxSize: int, imsize: int)
    requires Inv(st, imsize) && |st.edges| > 0
    ensures |st.table.ids| > 0
    ensures Selected(st.edges).a in st.table.regions && Selected(st.edges).b in st.table.regions
    ensures var i, j := Selected(st.edges).a, Selected(st.edges).b;
      var merged := Merged(st, imsize);
      var t := NewId(st.table);
      var kept := Untouched(st.edges, i, j);
      var ks := WithoutPair(KeysOf(Touching(st.edges, i, j)), Pair(i, j));
      && t !in st.table.regions
      && (forall k :: k in ks <==> k in KeySet(st.edges) && Touches(k, i, j) && k != Pair(i, j))
      && (forall k :: k in ks ==> Other(k, i, j) in st.table.regions && Other(k, i, j) != i && Other(k, i, j) != j)
      && (merged.bboxSize > maxSize ==> Step(st, maxSize, imsize).edges == kept)
      && (merged.bboxSize <= maxSize ==>
            imsize > 0 && t in Step(st, maxSize, imsize).table.regions &&
            Step(st, maxSize, imsize).edges ==
              Reconnect(kept, ks, i, j, t, Step(st, maxSize, imsize).table.regions, imsize))
  {
    SelectedInTable(st, imsize);
    NewIdIsFresh(st.table);
    var i, j := Selected(st.edges).a, Selected(st.edges).b;
    RetiredKeys(st, imsize, i, j, KeysOf(Touching(st.edges, i, j)));
  }

  /** Reconnecting leaves a region unnamed when no kept edge names it, it is
      not the new region, and no retired key leads to it. */
  lemma ReconnectAvoids(s: seq<Edge>, ks: seq<Pair>, i: int, j: int, t: int,
                        regions: map<int, Region>, imsize: int, x: int)
    requires imsize > 0 && t in regions
    requires forall k :: k in ks ==> Other(k, i, j) in regions
    requires forall e :: e in s ==> !Mentions(e.key, x)
    requires x != t
    requires forall k :: k in ks ==> Other(k, i, j) != x
    ensures forall e :: e in Reconnect(s, ks, i, j, t, regions, imsize) ==> !Mentions(e.key, x)
  {
    forall e | e in Reconnect(s, ks, i, j, t, regions, imsize)
      ensures !Mentions(e.key, x)
    {
      if e !in s {
        assert Joins(e, ks, i, j, t, regions, imsize);
        var k :| k in ks && e.key.b == Other(k, i, j);
      }
    }
  }

  /** After a step no edge names either merged region. */
  lemma StepRetiresMerged(st: State, maxSize: int, imsize: int)
    requires Inv(st, imsize) && |st.edges| > 0
    ensures forall e :: e in Step(st, maxSize, imsize).edges ==>
      !Touches(e.key, Selected(st.edges).a, Selected(st.edges).b)
  {
    StepEdges(st, maxSize, imsize);
    var i, j := Selected(st.edges).a, Selected(st.edges).b;
    var t := NewId(st.table);
    var kept := Untouched(st.edges, i, j);
    var ks := WithoutPair(KeysOf(Touching(st.edges, i, j)), Pair(i, j));
    var r := Step(st, maxSize, imsize);
    if Merged(st, imsize).bboxSize <= maxSize {
      ReconnectAvoids(kept, ks, i, j, t, r.table.regions, imsize, i);
      ReconnectAvoids(kept, ks, i, j, t, r.table.regions, imsize, j);
    }
  }

  /** A region the map no longer names stays unnamed, except the new one. */
  lemma StepKeepsRetired(st: State, maxSize: int, imsize: int, x: int)
    requires Inv(st, imsize) && |st.edges| > 0
    requires forall e :: e in st.edges ==> !Mentions(e.key, x)
    requires |st.table.ids| > 0 && x != NewId(st.table)
    ensures forall e :: e in Step(st, maxSize, imsize).edges ==> !Mentions(e.key, x)
  {
    StepEdges(st, maxSize, imsize);
    var i, j := Selected(st.edges).a, Selected(st.edges).b;
    var t := NewId(st.table);
    var kept := Untouched(st.edges, i, j);
    var ks := WithoutPair(KeysOf(Touching(st.edges, i, j)), Pair(i, j));
    var r := Step(st, maxSize, imsize);
    if Merged(st, imsize).bboxSize <= maxSize {
      forall k | k in ks
        ensures Other(k, i, j) != x
      {
        var g :| g in st.edges && g.key == k;
      }
      ReconnectAvoids(kept, ks, i, j, t, r.table.regions, imsize, x);
    }
  }

  /** A merged region whose `bbox_size` exceeds the cap is frozen: the step
      adds no edge for it, so the map is the old one minus the parents' edges. */
  lemma StepFreezesOversized(st: State, maxSize: int, imsize: int)
    requires Inv(st, imsize) && |st.edges| > 0
    requires Merged(st, imsize).bboxSize > maxSize
    ensures forall e :: e in Step(st, maxSize, imsize).edges <==>
      e in st.edges && !Touches(e.key, Selected(st.edges).a, Selected(st.edges).b)
    ensures forall e :: e in Step(st, maxSize, imsize).edges ==> !Mentions(e.key, NewId(st.table))
  {
    StepEdges(st, maxSize, imsize);
    KeptAvoidsFresh(st, imsize, Step(st, maxSize, imsize).edges, NewId(st.table));
  }

  /** A step keeps the surviving old edges at the front of the map, in their
      old order (`Filter` keeps relative order, see `FilterConcat`), and puts
      the new region's edges after them: insertion order stays the position
      order the tie-break reads. */
  lemma StepKeepsOrder(st: State, maxSize: int, imsize: int)
    requires Inv(st, imsize) && |st.edges| > 0
    ensures var kept := Untouched(st.edges, Selected(st.edges).a, Selected(st.edges).b);
      var r := Step(st, maxSize, imsize).edges;
      && |kept| <= |r| && r[..|kept|] == kept
      && forall p :: |kept| <= p < |r| ==> r[p].key.a == NewId(st.table)
  {
    StepEdges(st, maxSize, imsize);
    var i, j := Selected(st.edges).a, Selected(st.edges).b;
    var t := NewId(st.table);
    var kept := Untouched(st.edges, i, j);
    var r := Step(st, maxSize, imsize);
    KeptAvoidsFresh(st, imsize, kept, t);
    if Merged(st, imsize).bboxSize <= maxSize {
      var ks := WithoutPair(KeysOf(Touching(st.edges, i, j)), Pair(i, j));
      ReconnectAfter(kept, ks, i, j, t, r.table.regions, imsize);
    }
  }

  /** Reconnecting onto edges that do not start at `t` leaves them in front,
      unchanged, and appends only keys that start at `t`. */
  lemma ReconnectAfter(kept: seq<Edge>, ks: seq<Pair>, i: int, j: int, t: int,
                       regions: map<int, Region>, imsize: int)
    requires imsize > 0 && t in regions
    requires forall k :: k in ks ==> Other(k, i, j) in regions
    requires forall e :: e in kept ==> !Mentions(e.key, t)
    ensures var r := Reconnect(kept, ks, i, j, t, regions, imsize);
      && |kept| <= |r| && r[..|kept|] == kept
      && forall p :: |kept| <= p < |r| ==> r[p].key.a == t
  {
    assert forall p :: 0 <= p < |kept| ==> kept[p] in kept;
  }


  /** A merged region within the cap gets exactly one new key `(t, n)` for
      each region `n` that shared a key with either parent, other than the
      merged key itself; every other key is an old key of neither parent. */
  lemma StepReconnects(st: State, maxSize: int, imsize: int)
    requires Inv(st, imsize) && |st.edges| > 0
    requires Merged(st, imsize).bboxSize <= maxSize
    ensures KeySet(Step(st, maxSize, imsize).edges) ==
      (set k | k in KeySet(st.edges) && !Touches(k, Selected(st.edges).a, Selected(st.edges).b))
      + (set k | k in KeySet(st.edges) && Touches(k, Selected(st.edges).a, Selected(st.edges).b) && k != Selected(st.edges)
           :: Pair(NewId(st.table), Other(k, Selected(st.edges).a, Selected(st.edges).b)))
  {
    StepEdges(st, maxSize, imsize);
    var i, j := Selected(st.edges).a, Selected(st.edges).b;
    var t := NewId(st.table);
    var kept := Untouched(st.edges, i, j);
    var ks := WithoutPair(KeysOf(Touching(st.edges, i, j)), Pair(i, j));
    KeptKeys(st.edges, i, j);
    NewKeysOfRetired(ks, KeySet(st.edges), i, j, t);
  }

  lemma KeptKeys(s: seq<Edge>, i: int, j: int)
    ensures KeySet(Untouched(s, i, j)) == (set k | k in KeySet(s) && !Touches(k, i, j))
  {
    forall k | k in KeySet(s) && !Touches(k, i, j)
      ensures k in KeySet(Untouched(s, i, j))
    {
      var e :| e in s && e.key == k;
      assert e in Untouched(s, i, j);
    }
  }

  lemma NewKeysOfRetired(ks: seq<Pair>, keys: set<Pair>, i: int, j: int, t: int)
    requires forall k :: k in ks <==> k in keys && Touches(k, i, j) && k != Pair(i, j)
    ensures NewKeys(ks, i, j, t) ==
      (set k | k in keys && Touches(k, i, j) && k != Pair(i, j) :: Pair(t, Other(k, i, j)))
  {
  }

  /** The merge loop: step until the map is empty. Each step consumes at least
      one edge, so at most `|S|` merges happen. */
  function Agglomerate(st: State, maxSize: int, imsize: int): (r: State)
    requires Inv(st, imsize)
    ensures Inv(r, imsize)
    ensures r.edges == []
    ensures Extends(st.table, r.table)
    ensures |r.table.ids| <= |st.table.ids| + |st.edges|
    ensures forall id :: id in r.table.regions && id !in st.table.regions ==> |r.table.regions[id].labels| >= 2
    decreases |st.edges|
  {
    if |st.edges| == 0 then st
    else
      var next := Step(st, maxSize, imsize);
      var r := Agglomerate(next, maxSize, imsize);
      StepLabels(st, maxSize, imsize);
      ChainTables(st.table, next.table, r.table);
      r
  }

  /** Two extensions that each add only merged regions compose. */
  lemma ChainTables(a: Table, b: Table, c: Table)
    requires Extends(a, b) && Extends(b, c)
    requires forall id :: id in b.regions && id !in a.regions ==> |b.regions[id].labels| >= 2
    requires forall id :: id in c.regions && id !in b.regions ==> |c.regions[id].labels| >= 2
    ensures Extends(a, c)
    ensures forall id :: id in c.regions && id !in a.regions ==> |c.regions[id].labels| >= 2
  {
  }

  /** The only region a step adds is a merge of two, so it has two or more labels. */
  lemma StepLabels(st: State, maxSize: int, imsize: int)
    requires Inv(st, imsize) && |st.edges| > 0
    ensures forall id :: id in Step(st, maxSize, imsize).table.regions && id !in st.table.regions ==>
      |Step(st, maxSize, imsize).table.regions[id].labels| >= 2
  {
    SelectedInTable(st, imsize);
  }

  /** A property of regions that every merge preserves holds of every region
      the loop leaves in the table. */
  lemma {:induction false} AgglomeratePreserves(st: State, maxSize: int, imsize: int, P: Region -> bool)
    requires Inv(st, imsize)
    requires forall id :: id in st.table.regions ==> P(st.table.regions[id])
    requires forall r1, r2 :: WellFormed(r1) && WellFormed(r2) && P(r1) && P(r2) ==> P(Merge(r1, r2))
    ensures forall id :: id in Agglomerate(st, maxSize, imsize).table.regions ==>
      P(Agglomerate(st, maxSize, imsize).table.regions[id])
    decreases |st.edges|
  {
    if |st.edges| > 0 {
      SelectedInTable(st, imsize);
      AgglomeratePreserves(Step(st, maxSize, imsize), maxSize, imsize, P);
    }
  }

  /** The ids of `ids` whose `bbox_size` exceeds the cap, in order. */
  function Oversized(regions: map<int, Region>, ids: seq<int>, maxSize: int): (pop: seq<int>)
    requires forall k :: 0 <= k < |ids| ==> ids[k] in regions
    ensures forall x :: x in pop <==> x in ids && regions[x].bboxSize > maxSize
    decreases |ids|
  {
    if |ids| == 0 then []
    else
      var rest := Oversized(regions, ids[1..], maxSize);
      assert forall x :: x in ids <==> x == ids[0] || x in ids[1..];
      if regions[ids[0]].bboxSize > maxSize then [ids[0]] + rest else rest
  }

  /** The `region_pop` pre-pass: every region whose `bbox_size` exceeds the cap
      loses all its edges and goes on the list excluded from the output. */
  function RegionPop(st: State, maxSize: int): (r: (seq<Edge>, seq<int>))
    requires TableValid(st.table)
    ensures forall x :: x in r.1 <==> x in st.table.ids && st.table.regions[x].bboxSize > maxSize
    ensures forall e :: e in r.0 <==> e in st.edges && e.key.a !in r.1 && e.key.b !in r.1
    ensures KeysDistinct(st.edges) ==> KeysDistinct(r.0)
  {
    assert forall k :: 0 <= k < |st.table.ids| ==> st.table.ids[k] in st.table.ids;
    var pop := Oversized(st.table.regions, st.table.ids, maxSize);
    (Filter(st.edges, (e: Edge) => e.key.a !in pop && e.key.b !in pop), pop)
  }
}

=== FILE: neighbours.dfy ===
/** The neighbour graph of the expanded initial regions: every pair of regions,
    the earlier one first, is tested once with the corner test; the pairs that
    pass become the first edges of the similarity map, and a mask records which
    regions have a neighbour at all. */
module Neighbours {
  import opened Geometry
  import opened Regions
  import opened Edges

  /** The region at position `p` of the table's iteration order. */
  function At(t: Table, p: int): Region
    requires TableValid(t) && 0 <= p < |t.ids|
  {
    assert t.ids[p] in t.ids;
    t.regions[t.ids[p]]
  }

  /** The positions `(p, q')`, `q <= q' < n`, whose regions pass the test with
      the region at `p` first. */
  function PairsWith(t: Table, p: nat, q: nat): (r: seq<Pair>)
    requires TableValid(t) && p < |t.ids| && q <= |t.ids|
    ensures forall k :: 0 <= k < |r| ==> r[k].a == p && q <= r[k].b < |t.ids|
    ensures forall k, m :: 0 <= k < m < |r| ==> r[k].b < r[m].b
    ensures forall b :: q <= b < |t.ids| ==> (Pair(p, b) in r <==> CornerInside(At(t, p).box, At(t, b).box))
    decreases |t.ids| - q
  {
    if q == |t.ids| then []
    else
      var rest := PairsWith(t, p, q + 1);
      if CornerInside(At(t, p).box, At(t, q).box) then [Pair(p, q)] + rest else rest
  }

  /** The position pairs with first position at least `p`, in the order of
      the two nested loops. */
  function PairsFrom(t: Table, p: nat): (r: seq<Pair>)
    requires TableValid(t) && p <= |t.ids|
    ensures forall k :: 0 <= k < |r| ==> p <= r[k].a < r[k].b < |t.ids|
    ensures forall k, m :: 0 <= k < m < |r| ==> r[k].a < r[m].a || (r[k].a == r[m].a && r[k].b < r[m].b)
    ensures forall a, b :: p <= a < b < |t.ids| ==> (Pair(a, b) in r <==> CornerInside(At(t, a).box, At(t, b).box))
    decreases |t.ids| - p
  {
    if p == |t.ids| then []
    else
      var row := PairsWith(t, p, p + 1);
      var rest := PairsFrom(t, p + 1);
      PairsFromStep(t, p, row, rest);
      row + rest
  }

  /** `_extract_neighbours`: the position pairs `(a, b)`, `a < b`, whose regions
      pass the corner test with `a` first; each pair once, in loop order. */
  function NeighbourPairs(t: Table): (r: seq<Pair>)
    requires TableValid(t)
    ensures forall k :: 0 <= k < |r| ==> 0 <= r[k].a < r[k].b < |t.ids|
    ensures forall k, m :: 0 <= k < m < |r| ==> r[k].a < r[m].a || (r[k].a == r[m].a && r[k].b < r[m].b)
    ensures forall k, m :: 0 <= k < m < |r| ==> r[k] != r[m]
    ensures forall a, b :: 0 <= a < b < |t.ids| ==> (Pair(a, b) in r <==> CornerInside(At(t, a).box, At(t, b).box))
  {
    PairsFrom(t, 0)
  }

  /** The neighbour mask: position `i` is set by every pair it belongs to. */
  function Mask(n: nat, pairs: seq<Pair>): (m: seq<bool>)
    requires forall k :: 0 <= k < |pairs| ==> 0 <= pairs[k].a < n && 0 <= pairs[k].b < n
    ensures |m| == n
    ensures forall i :: 0 <= i < n ==> (m[i] <==> exists k :: 0 <= k < |pairs| && Mentions(pairs[k], i))
    decreases |pairs|
  {
    if |pairs| == 0 then seq(n, _ => false)
    else
      var last := pairs[|pairs| - 1];
      var front := Mask(n, pairs[..|pairs| - 1]);
      assert forall k :: 0 <= k < |pairs| - 1 ==> pairs[..|pairs| - 1][k] == pairs[k];
      front[last.a := true][last.b := true]
  }

  /** The assertion `_extract_neighbours` makes on its result: a position the
      mask leaves unset is never the second member of a pair. */
  lemma UnmaskedHasNoEarlierNeighbour(t: Table, i: nat)
    requires TableValid(t) && i < |t.ids|
    requires !Mask(|t.ids|, NeighbourPairs(t))[i]
    ensures forall k :: 0 <= k < |NeighbourPairs(t)| ==> NeighbourPairs(t)[k].b != i
  {
  }

  lemma PairsFromStep(t: Table, p: nat, row: seq<Pair>, rest: seq<Pair>)
    requires TableValid(t) && p < |t.ids|
    requires forall k :: 0 <= k < |row| ==> row[k].a == p && p + 1 <= row[k].b < |t.ids|
    requires forall k, m :: 0 <= k < m < |row| ==> row[k].b < row[m].b
    requires forall b :: p + 1 <= b < |t.ids| ==> (Pair(p, b) in row <==> CornerInside(At(t, p).box, At(t, b).box))
    requires forall k :: 0 <= k < |rest| ==> p + 1 <= rest[k].a < rest[k].b < |t.ids|
    requires forall k, m :: 0 <= k < m < |rest| ==> rest[k].a < rest[m].a || (rest[k].a == rest[m].a && rest[k].b < rest[m].b)
    requires forall a, b :: p + 1 <= a < b < |t.ids| ==> (Pair(a, b) in rest <==> CornerInside(At(t, a).box, At(t, b).box))
    ensures var r := row + rest;
      && (forall k :: 0 <= k < |r| ==> p <= r[k].a < r[k].b < |t.ids|)
      && (forall k, m :: 0 <= k < m < |r| ==> r[k].a < r[m].a || (r[k].a == r[m].a && r[k].b < r[m].b))
      && (forall a, b :: p <= a < b < |t.ids| ==> (Pair(a, b) in r <==> CornerInside(At(t, a).box, At(t, b).box)))
  {
    var r := row + rest;
    forall k, m | 0 <= k < m < |r|
      ensures r[k].a < r[m].a || (r[k].a == r[m].a && r[k].b < r[m].b)
    {
      if m < |row| {
        assert r[k] == row[k] && r[m] == row[m];
      } else if k < |row| {
        assert r[k] == row[k] && r[m] == rest[m - |row|];
      } else {
        assert r[k] == rest[k - |row|] && r[m] == rest[m - |row|];
      }
    }
    forall a, b | p <= a < b < |t.ids|
      ensures Pair(a, b) in r <==> CornerInside(At(t, a).box, At(t, b).box)
    {
      if a == p {
        assert Pair(a, b) !in rest;
      } else {
        assert Pair(a, b) !in row;
      }
    }
  }
}

=== FILE: regions.dfy ===
/** Region records, the pairwise merge, the border expansion of the initial
    regions, and the region table (an insertion-ordered dictionary from
    region id to region). */
module Regions {
  import opened Geometry
  import opened Histograms

  /** A region as extraction builds it, before expansion: no `og_*` box yet. */
  datatype RawRegion = RawRegion(
    box: Box,
    size: int,
    histC: seq<real>,
    histT: seq<real>,
    labels: seq<int>,
    bboxSize: int)

  /** A region of the merge phase. `box` is the border-expanded box that all
      merge geometry uses; `og` is the box before expansion, only ever
      unioned with other `og` boxes. `size` is a pixel count. */
  datatype Region = Region(
    box: Box,
    og: Box,
    size: int,
    histC: seq<real>,
    histT: seq<real>,
    labels: seq<int>,
    bboxSize: int)

  /** What the merge needs of each region: a positive size to divide by and
      histograms of the fixed lengths. */
  predicate WellFormed(r: Region)
  {
    && r.size > 0
    && |r.histC| == ColourHistLength
    && |r.histT| == TextureHistLength
    && |r.labels| > 0
  }

  /** Combine two regions into the region covering both. */
  function Merge(r1: Region, r2: Region): (m: Region)
    requires WellFormed(r1) && WellFormed(r2)
    ensures WellFormed(m)
    ensures m.size == r1.size + r2.size
    ensures Encloses(m.box, r1.box) && Encloses(m.box, r2.box)
    ensures forall c :: Encloses(c, r1.box) && Encloses(c, r2.box) ==> Encloses(c, m.box)
    ensures Encloses(m.og, r1.og) && Encloses(m.og, r2.og)
    ensures forall c :: Encloses(c, r1.og) && Encloses(c, r2.og) ==> Encloses(c, m.og)
    ensures m.labels == r1.labels + r2.labels
    ensures m.bboxSize == Area(m.box)
    ensures forall k :: 0 <= k < ColourHistLength ==>
      m.histC[k] * (r1.size + r2.size) as real == r1.histC[k] * r1.size as real + r2.histC[k] * r2.size as real
    ensures forall k :: 0 <= k < TextureHistLength ==>
      m.histT[k] * (r1.size + r2.size) as real == r1.histT[k] * r1.size as real + r2.histT[k] * r2.size as real
  {
    var newSize := r1.size + r2.size;
    var box := Union(r1.box, r2.box);
    Region(
      box,
      Union(r1.og, r2.og),
      newSize,
      Blend(r1.histC, r1.size as real, r2.histC, r2.size as real),
      Blend(r1.histT, r1.size as real, r2.histT, r2.size as real),
      r1.labels + r2.labels,
      Area(box))
  }

  /** The merged box lies inside the image when both parents' boxes do, and
      its `bbox_size` is at least each parent's box area. */
  lemma MergeWithin(r1: Region, r2: Region, xLim: int, yLim: int)
    requires WellFormed(r1) && WellFormed(r2)
    requires Ordered(r1.box) && Ordered(r2.box)
    requires Within(r1.box, xLim, yLim) && Within(r2.box, xLim, yLim)
    ensures Ordered(Merge(r1, r2).box) && Within(Merge(r1, r2).box, xLim, yLim)
    ensures Area(r1.box) <= Merge(r1, r2).bboxSize && Area(r2.box) <= Merge(r1, r2).bboxSize
  {
    var m := Merge(r1, r2);
    UnionWithin(r1.box, r2.box, xLim, yLim);
    AreaMonotone(m.box, r1.box);
    AreaMonotone(m.box, r2.box);
  }

  /** Merging parents whose histograms are normalised as the program builds
      them (colour blocks of mass 1, texture blocks of mass at most 1) gives
      histograms normalised the same way. */
  lemma MergeKeepsNormalised(r1: Region, r2: Region)
    requires WellFormed(r1) && WellFormed(r2)
    requires ColourNormalised(r1.histC) && ColourNormalised(r2.histC)
    requires TextureNormalised(r1.histT) && TextureNormalised(r2.histT)
    ensures ColourNormalised(Merge(r1, r2).histC) && TextureNormalised(Merge(r1, r2).histT)
  {
    var s1, s2 := r1.size as real, r2.size as real;
    BlendNonNegative(r1.histC, s1, r2.histC, s2);
    BlendNonNegative(r1.histT, s1, r2.histT, s2);
    BlendKeepsBlockMasses(r1.histC, s1, r2.histC, s2, ColourBins, 1.0, 1.0);
    BlendKeepsBlockMasses(r1.histT, s1, r2.histT, s2, TextureBins, 0.0, 1.0);
  }

  /** Pad the box by `border` on every side and clip it to `[0, xLim] x [0, yLim]`.
      Everything else is carried over; `bbox_size` stays the pre-expansion area. */
  function ExpandOne(r: RawRegion, border: int, xLim: int, yLim: int): (e: Region)
    ensures e.og == r.box
    ensures e.size == r.size && e.histC == r.histC && e.histT == r.histT && e.labels == r.labels
    ensures e.bboxSize == Area(r.box)
    ensures e.box.minX >= 0 && e.box.minX >= r.box.minX - border
    ensures e.box.minX == 0 || e.box.minX == r.box.minX - border
    ensures e.box.minY >= 0 && e.box.minY >= r.box.minY - border
    ensures e.box.minY == 0 || e.box.minY == r.box.minY - border
    ensures e.box.maxX <= xLim && e.box.maxX <= r.box.maxX + border
    ensures e.box.maxX == xLim || e.box.maxX == r.box.maxX + border
    ensures e.box.maxY <= yLim && e.box.maxY <= r.box.maxY + border
    ensures e.box.maxY == yLim || e.box.maxY == r.box.maxY + border
  {
    Region(
      Box(Max(0, r.box.minX - border), Max(0, r.box.minY - border),
          Min(xLim, r.box.maxX + border), Min(yLim, r.box.maxY + border)),
      r.box,
      r.size,
      r.histC,
      r.histT,
      r.labels,
      Area(r.box))
  }

  /** With a non-negative border, an ordered box inside the image is enclosed
      by its expansion, and the expansion is an ordered box inside the image. */
  lemma ExpandOneEncloses(r: RawRegion, border: int, xLim: int, yLim: int)
    requires border >= 0
    requires Ordered(r.box) && Within(r.box, xLim, yLim)
    ensures Encloses(ExpandOne(r, border, xLim, yLim).box, r.box)
    ensures Ordered(ExpandOne(r, border, xLim, yLim).box)
    ensures Within(ExpandOne(r, border, xLim, yLim).box, xLim, yLim)
  {
  }

  /** A region table: the ids in insertion order and the regions they name. */
  datatype Table = Table(ids: seq<int>, regions: map<int, Region>)

  predicate TableValid(t: Table)
  {
    && (forall p, q :: 0 <= p < q < |t.ids| ==> t.ids[p] != t.ids[q])
    && (forall id :: id in t.regions ==> id in t.ids)
    && (forall id :: id in t.ids ==> id in t.regions)
  }

  /** `later` keeps every id of `earlier`, in the same order and with the same region. */
  predicate Extends(earlier: Table, later: Table)
  {
    && earlier.ids <= later.ids
    && (forall id :: id in earlier.regions ==> id in later.regions && later.regions[id] == earlier.regions[id])
  }

  /** Renumber the extracted regions `0 .. n-1` in extraction order and expand each. */
  function Expand(raws: seq<RawRegion>, border: int, xLim: int, yLim: int): (t: Table)
    ensures TableValid(t)
    ensures |t.ids| == |raws|
    ensures forall k :: 0 <= k < |raws| ==> t.ids[k] == k
    ensures forall id :: id in t.regions <==> 0 <= id < |raws|
    ensures forall k :: 0 <= k < |raws| ==> t.regions[k] == ExpandOne(raws[k], border, xLim, yLim)
  {
    var ids := seq(|raws|, k => k);
    var regions := map k | 0 <= k < |raws| :: ExpandOne(raws[k], border, xLim, yLim);
    assert forall id :: id in regions ==> ids[id] == id;
    Table(ids, regions)
  }
}

=== FILE: search.dfy ===
/** The search driver: extraction, expansion, the neighbour graph, the
    initial similarities, the optional `region_pop` pre-pass, the merge loop
    and the proposal list it returns. The segmentation that produces the
    label grid and the histogram binning are inputs. */
module Search {
  import opened Geometry
  import opened Histograms
  import opened Regions
  import opened Edges
  import opened Extraction
  import opened Neighbours
  import opened MergeLoop
  import opened Frontier

  /** `(left, top, width, height)`. */
  datatype Rect = Rect(left: int, top: int, width: int, height: int)

  /** One output record: the region's (expanded) box as a rectangle, its
      `bbox_size`, its pixel count and its labels. */
  datatype Proposal = Proposal(rect: Rect, bboxSize: int, size: int, labels: seq<int>)

  /** The box with corners `(left, top)` and `(left + width, top + height)`. */
  function BoxOf(r: Rect): Box
  {
    Box(r.left, r.top, r.left + r.width, r.top + r.height)
  }

  /** `(min_x, min_y, max_x - min_x, max_y - min_y)`. */
  function RectOf(b: Box): (r: Rect)
    ensures BoxOf(r) == b
    ensures Ordered(b) <==> r.width >= 0 && r.height >= 0
  {
    Rect(b.minX, b.minY, b.maxX - b.minX, b.maxY - b.minY)
  }

  /** Every rectangle is the rectangle of its own box. */
  lemma RectOfBoxOf(r: Rect)
    ensures RectOf(BoxOf(r)) == r
  {
  }

  function ToProposal(r: Region): (p: Proposal)
    ensures BoxOf(p.rect) == r.box
    ensures p.bboxSize == r.bboxSize && p.size == r.size && p.labels == r.labels
  {
    Proposal(RectOf(r.box), r.bboxSize, r.size, r.labels)
  }

  /** The output loop: one record for each id of the table, in insertion
      order, that is not on the popped list. Consumed regions are not
      skipped. */
  function Emit(ids: seq<int>, regions: map<int, Region>, pop: seq<int>): (ps: seq<Proposal>)
    requires forall k :: 0 <= k < |ids| ==> ids[k] in regions
    requires forall a, b :: 0 <= a < b < |ids| ==> ids[a] != ids[b]
    ensures forall p :: p in ps <==> exists id :: id in ids && id !in pop && p == ToProposal(regions[id])
    ensures |ps| == |set id | id in ids && id !in pop|
    ensures |ps| <= |ids|
    ensures (forall k :: 0 <= k < |ids| ==> ids[k] !in pop) ==> |ps| == |ids|
    decreases |ids|
  {
    if |ids| == 0 then
      assert (set id | id in ids && id !in pop) == {};
      []
    else
      var rest := Emit(ids[1..], regions, pop);
      assert forall id :: id in ids <==> id == ids[0] || id in ids[1..];
      EmitCount(ids, pop);
      if ids[0] in pop then rest else [ToProposal(regions[ids[0]])] + rest
  }

  /** The ids kept from a distinct list gain its head exactly when the head is
      not popped. */
  lemma EmitCount(ids: seq<int>, pop: seq<int>)
    requires |ids| > 0
    requires forall a, b :: 0 <= a < b < |ids| ==> ids[a] != ids[b]
    ensures |set id | id in ids && id !in pop| ==
      |set id | id in ids[1..] && id !in pop| + (if ids[0] in pop then 0 else 1)
  {
    var all, rest := set id | id in ids && id !in pop, set id | id in ids[1..] && id !in pop;
    assert forall id :: id in ids <==> id == ids[0] || id in ids[1..];
    assert ids[0] !in rest;
    if ids[0] in pop {
      assert all == rest;
    } else {
      assert all == rest + {ids[0]};
    }
  }

  /** A region's size is the pixel count of its labels. */
  predicate SizeIsPixelCount(px: seq<Pixel>, r: Region)
  {
    r.size == LabelPixels(px, r.labels)
  }

  /** A region's box is ordered and inside `[0, xLim] x [0, yLim]`. */
  predicate BoxInImage(r: Region, xLim: int, yLim: int)
  {
    Ordered(r.box) && Within(r.box, xLim, yLim)
  }

  /** Merging keeps sizes equal to pixel counts. */
  lemma MergeCountsPixels(px: seq<Pixel>)
    ensures forall r1, r2 :: WellFormed(r1) && WellFormed(r2) && SizeIsPixelCount(px, r1) && SizeIsPixelCount(px, r2) ==>
      SizeIsPixelCount(px, Merge(r1, r2))
  {
    forall r1, r2 | WellFormed(r1) && WellFormed(r2) && SizeIsPixelCount(px, r1) && SizeIsPixelCount(px, r2)
      ensures SizeIsPixelCount(px, Merge(r1, r2))
    {
      LabelPixelsConcat(px, r1.labels, r2.labels);
    }
  }

  /** Merging keeps boxes ordered and inside the image. */
  lemma MergeKeepsBoxInImage(xLim: int, yLim: int)
    ensures forall r1, r2 :: WellFormed(r1) && WellFormed(r2) && BoxInImage(r1, xLim, yLim) && BoxInImage(r2, xLim, yLim) ==>
      BoxInImage(Merge(r1, r2), xLim, yLim)
  {
    forall r1, r2 | WellFormed(r1) && WellFormed(r2) && BoxInImage(r1, xLim, yLim) && BoxInImage(r2, xLim, yLim)
      ensures BoxInImage(Merge(r1, r2), xLim, yLim)
    {
      MergeWithin(r1, r2, xLim, yLim);
    }
  }

  /** The expanded initial regions: `R` after `_expand_regions`. */
  function InitialTable(rows: seq<seq<Label>>, width: nat, histC: map<Label, seq<real>>, histT: map<Label, seq<real>>,
                        border: int): (t: Table)
    requires Rectangular(rows, width)
    requires HistogramsCover(rows, histC, histT)
    ensures TableValid(t) && AllWellFormed(t.regions)
    ensures forall id :: id in t.regions ==> SizeIsPixelCount(Pixels(rows), t.regions[id])
    ensures border >= 0 ==> forall id :: id in t.regions ==> BoxInImage(t.regions[id], width, |rows|)
    ensures |t.ids| > 0 ==> |rows| * width > 0
  {
    var raws := ExtractRegions(rows, width, histC, histT);
    ExpandedFacts(raws, Pixels(rows), border, width, |rows|);
    Expand(raws, border, width, |rows|)
  }

  /** What the expanded table inherits from well-formed extracted regions. */
  lemma ExpandedFacts(raws: seq<RawRegion>, px: seq<Pixel>, border: int, xLim: int, yLim: int)
    requires forall k :: 0 <= k < |raws| ==>
      && |raws[k].labels| == 1
      && raws[k].size == Count(px, raws[k].labels[0])
      && raws[k].size > 0
      && |raws[k].histC| == ColourHistLength && |raws[k].histT| == TextureHistLength
      && Ordered(raws[k].box)
      && Within(raws[k].box, xLim - 1, yLim - 1)
    requires |raws| > 0 ==> xLim > 0 && yLim > 0
    ensures AllWellFormed(Expand(raws, border, xLim, yLim).regions)
    ensures forall id :: id in Expand(raws, border, xLim, yLim).regions ==>
      SizeIsPixelCount(px, Expand(raws, border, xLim, yLim).regions[id])
    ensures border >= 0 ==> forall id :: id in Expand(raws, border, xLim, yLim).regions ==>
      BoxInImage(Expand(raws, border, xLim, yLim).regions[id], xLim, yLim)
    ensures |raws| > 0 ==> yLim * xLim > 0
  {
    var t := Expand(raws, border, xLim, yLim);
    forall id | id in t.regions
      ensures WellFormed(t.regions[id]) && SizeIsPixelCount(px, t.regions[id])
      ensures border >= 0 ==> BoxInImage(t.regions[id], xLim, yLim)
    {
      assert raws[id].labels == [raws[id].labels[0]];
      if border >= 0 {
        ExpandOneEncloses(raws[id], border, xLim, yLim);
      }
    }
  }

  /** The similarity map before the loop, and the ids `region_pop` set aside
      (none when the pre-pass is off). */
  function Prepare(t: Table, imsize: int, regionPop: bool, maxRegionSize: int): (r: (State, seq<int>))
    requires TableValid(t) && AllWellFormed(t.regions)
    requires |t.ids| > 0 ==> imsize > 0
    ensures Inv(r.0, imsize) && r.0.table == t
    ensures forall x :: x in r.1 <==> regionPop && x in t.ids && t.regions[x].bboxSize > maxRegionSize
    ensures forall e :: e in r.0.edges ==> e.key.a !in r.1 && e.key.b !in r.1
  {
    var s0 := InitialEdges(t, NeighbourPairs(t), imsize);
    if regionPop then
      var pruned := RegionPop(State(t, s0), maxRegionSize);
      KeepEdgesInv(State(t, s0), imsize, t, pruned.0);
      (State(t, pruned.0), pruned.1)
    else
      (State(t, s0), [])
  }

  /** The table the merge loop leaves, and the ids `region_pop` set aside. */
  function Run(rows: seq<seq<Label>>, width: nat,
               histC: map<Label, seq<real>>, histT: map<Label, seq<real>>,
               regionPop: bool, maxRegionSize: int, border: int): (r: (State, seq<int>))
    requires Rectangular(rows, width)
    requires HistogramsCover(rows, histC, histT)
    ensures Inv(r.0, |rows| * width) && r.0.edges == []
    ensures var t0 := InitialTable(rows, width, histC, histT, border);
      && Extends(t0, r.0.table)
      && (forall id :: id in r.0.table.regions && id !in t0.regions ==> |r.0.table.regions[id].labels| >= 2)
      && (forall x :: x in r.1 <==> regionPop && x in t0.ids && t0.regions[x].bboxSize > maxRegionSize)
  {
    var t0 := InitialTable(rows, width, histC, histT, border);
    var prep := Prepare(t0, |rows| * width, regionPop, maxRegionSize);
    (Agglomerate(prep.0, maxRegionSize, |rows| * width), prep.1)
  }

  /** `selective_search` after segmentation: the proposals, and `og_regions`,
      which is always empty. */
  function SelectiveSearch(rows: seq<seq<Label>>, width: nat,
                           histC: map<Label, seq<real>>, histT: map<Label, seq<real>>,
                           regionPop: bool, maxRegionSize: int, border: int): (r: (seq<Proposal>, seq<Proposal>))
    requires Rectangular(rows, width)
    requires HistogramsCover(rows, histC, histT)
    ensures r.1 == []
    ensures var fin := Run(rows, width, histC, histT, regionPop, maxRegionSize, border).0.table;
      && |r.0| <= |fin.ids|
      && (!regionPop ==> |r.0| == |fin.ids|)
  {
    var run := Run(rows, width, histC, histT, regionPop, maxRegionSize, border);
    var fin := run.0.table;
    EmitReady(fin, run.1, regionPop);
    (Emit(fin.ids, fin.regions, run.1), [])
  }

  /** The final table can be walked, and with the pre-pass off nothing is set
      aside. */
  lemma EmitReady(fin: Table, pop: seq<int>, regionPop: bool)
    requires TableValid(fin)
    requires forall x :: x in pop ==> regionPop
    ensures forall k :: 0 <= k < |fin.ids| ==> fin.ids[k] in fin.regions
    ensures !regionPop ==> forall k :: 0 <= k < |fin.ids| ==> fin.ids[k] !in pop
  {
    forall k | 0 <= k < |fin.ids|
      ensures fin.ids[k] in fin.regions
      ensures !regionPop ==> fin.ids[k] !in pop
    {
      var id := fin.ids[k];
      assert id in fin.ids;
      assert id in pop ==> regionPop;
    }
  }

  /** Every initial region that `region_pop` does not set aside is in the
      output with its labels, `bbox_size` and size. */
  lemma SearchKeepsInitialRegions(rows: seq<seq<Label>>, width: nat,
                                  histC: map<Label, seq<real>>, histT: map<Label, seq<real>>,
                                  regionPop: bool, maxRegionSize: int, border: int, k: int)
    requires Rectangular(rows, width)
    requires HistogramsCover(rows, histC, histT)
    requires 0 <= k < |ExtractRegions(rows, width, histC, histT)|
    requires regionPop ==> ExtractRegions(rows, width, histC, histT)[k].bboxSize <= maxRegionSize
    ensures exists p ::
      && p in SelectiveSearch(rows, width, histC, histT, regionPop, maxRegionSize, border).0
      && p.labels == ExtractRegions(rows, width, histC, histT)[k].labels
      && p.bboxSize == ExtractRegions(rows, width, histC, histT)[k].bboxSize
      && p.size == ExtractRegions(rows, width, histC, histT)[k].size
  {
    var raws := ExtractRegions(rows, width, histC, histT);
    var t0 := InitialTable(rows, width, histC, histT, border);
    var run := Run(rows, width, histC, histT, regionPop, maxRegionSize, border);
    var fin := run.0.table;
    assert t0 == Expand(raws, border, width, |rows|);
    assert t0.ids[k] == k && k in t0.regions;
    assert k in fin.ids;
    assert fin.regions[k] == ExpandOne(raws[k], border, width, |rows|);
    assert k !in run.1;
    assert ToProposal(fin.regions[k]) in SelectiveSearch(rows, width, histC, histT, regionPop, maxRegionSize, border).0;
  }

  /** With `region_pop`, no single-label record (an initial region) in the
      output has a `bbox_size` over the cap: those were set aside. */
  lemma SearchDropsPopped(rows: seq<seq<Label>>, width: nat,
                          histC: map<Label, seq<real>>, histT: map<Label, seq<real>>,
                          maxRegionSize: int, border: int)
    requires Rectangular(rows, width)
    requires HistogramsCover(rows, histC, histT)
    ensures forall p :: p in SelectiveSearch(rows, width, histC, histT, true, maxRegionSize, border).0 && |p.labels| == 1 ==>
      p.bboxSize <= maxRegionSize
  {
    var t0 := InitialTable(rows, width, histC, histT, border);
    var run := Run(rows, width, histC, histT, true, maxRegionSize, border);
    var fin := run.0.table;
    forall p | p in SelectiveSearch(rows, width, histC, histT, true, maxRegionSize, border).0 && |p.labels| == 1
      ensures p.bboxSize <= maxRegionSize
    {
      var id :| id in fin.ids && id !in run.1 && p == ToProposal(fin.regions[id]);
      assert id in t0.regions;
    }
  }

  /** Every output record's size is the pixel count of its labels. */
  lemma SearchSizesArePixelCounts(rows: seq<seq<Label>>, width: nat,
                                  histC: map<Label, seq<real>>, histT: map<Label, seq<real>>,
                                  regionPop: bool, maxRegionSize: int, border: int)
    requires Rectangular(rows, width)
    requires HistogramsCover(rows, histC, histT)
    ensures forall p :: p in SelectiveSearch(rows, width, histC, histT, regionPop, maxRegionSize, border).0 ==>
      p.size == LabelPixels(Pixels(rows), p.labels)
  {
    var px := Pixels(rows);
    var t0 := InitialTable(rows, width, histC, histT, border);
    var prep := Prepare(t0, |rows| * width, regionPop, maxRegionSize);
    MergeCountsPixels(px);
    AgglomeratePreserves(prep.0, maxRegionSize, |rows| * width, (r: Region) => SizeIsPixelCount(px, r));
    var run := Run(rows, width, histC, histT, regionPop, maxRegionSize, border);
    var fin := run.0.table;
    forall p | p in SelectiveSearch(rows, width, histC, histT, regionPop, maxRegionSize, border).0
      ensures p.size == LabelPixels(px, p.labels)
    {
      var id :| id in fin.ids && id !in run.1 && p == ToProposal(fin.regions[id]);
      assert SizeIsPixelCount(px, fin.regions[id]);
    }
  }

  /** With a non-negative border every output rectangle has non-negative
      sides and lies inside the image. */
  lemma SearchBoxesInImage(rows: seq<seq<Label>>, width: nat,
                           histC: map<Label, seq<real>>, histT: map<Label, seq<real>>,
                           regionPop: bool, maxRegionSize: int, border: int)
    requires Rectangular(rows, width)
    requires HistogramsCover(rows, histC, histT)
    requires border >= 0
    ensures forall p :: p in SelectiveSearch(rows, width, histC, histT, regionPop, maxRegionSize, border).0 ==>
      p.rect.width >= 0 && p.rect.height >= 0 && Within(BoxOf(p.rect), width, |rows|)
  {
    var t0 := InitialTable(rows, width, histC, histT, border);
    var prep := Prepare(t0, |rows| * width, regionPop, maxRegionSize);
    MergeKeepsBoxInImage(width, |rows|);
    AgglomeratePreserves(prep.0, maxRegionSize, |rows| * width, (r: Region) => BoxInImage(r, width, |rows|));
    var run := Run(rows, width, histC, histT, regionPop, maxRegionSize, border);
    var fin := run.0.table;
    forall p | p in SelectiveSearch(rows, width, histC, histT, regionPop, maxRegionSize, border).0
      ensures p.rect.width >= 0 && p.rect.height >= 0 && Within(BoxOf(p.rect), width, |rows|)
    {
      var id :| id in fin.ids && id !in run.1 && p == ToProposal(fin.regions[id]);
      assert BoxInImage(fin.regions[id], width, |rows|);
    }
  }

  /** Summing a table's sizes along its ids gives the summed size of the
      regions it was built from, when position `k` holds the `k`-th one's size. */
  lemma {:induction false} SizeSumMatches(regions: map<int, Region>, ids: seq<int>, raws: seq<RawRegion>)
    requires |ids| == |raws|
    requires forall k :: 0 <= k < |ids| ==> ids[k] in regions && regions[ids[k]].size == raws[k].size
    ensures forall x :: x in ids ==> x in regions
    ensures SizeSum(regions, ids) == TotalSize(raws)
    decreases |ids|
  {
    if |ids| > 0 {
      SizeSumMatches(regions, ids[1..], raws[1..]);
    }
  }

  /** Before the loop every initial region is on the frontier: the regions
      hold one distinct label each and together every pixel of the image. */
  lemma InitialFrontier(rows: seq<seq<Label>>, width: nat,
                        histC: map<Label, seq<real>>, histT: map<Label, seq<real>>,
                        regionPop: bool, maxRegionSize: int, border: int)
    requires Rectangular(rows, width)
    requires HistogramsCover(rows, histC, histT)
    ensures var t0 := InitialTable(rows, width, histC, histT, border);
      IsFrontier(Prepare(t0, |rows| * width, regionPop, maxRegionSize).0, t0.ids, |rows| * width)
  {
    var raws := ExtractRegions(rows, width, histC, histT);
    var t0 := InitialTable(rows, width, histC, histT, border);
    var st := Prepare(t0, |rows| * width, regionPop, maxRegionSize).0;
    assert t0 == Expand(raws, border, width, |rows|);
    ExtractedSizesCoverImage(rows, width, histC, histT);
    StartFrontier(st, |rows| * width, raws, border, width, |rows|);
  }

  /** A state whose table is the expansion of regions with one distinct label
      each has all its ids as a frontier holding the regions' summed size. */
  lemma StartFrontier(st: State, imsize: int, raws: seq<RawRegion>, border: int, xLim: int, yLim: int)
    requires Inv(st, imsize)
    requires st.table == Expand(raws, border, xLim, yLim)
    requires forall k :: 0 <= k < |raws| ==> |raws[k].labels| == 1
    requires forall a, b :: 0 <= a < b < |raws| ==> raws[a].labels != raws[b].labels
    ensures IsFrontier(st, st.table.ids, TotalSize(raws))
  {
    SizeSumMatches(st.table.regions, st.table.ids, raws);
    EdgesInTable(st, imsize);
    SingleLabelsDisjoint(raws, st.table, border, xLim, yLim);
  }

  /** Every edge of a state satisfying the loop invariant joins two ids of its table. */
  lemma EdgesInTable(st: State, imsize: int)
    requires Inv(st, imsize)
    ensures forall e :: e in st.edges ==> e.key.a in st.table.ids && e.key.b in st.table.ids
  {
    forall e | e in st.edges
      ensures e.key.a in st.table.ids && e.key.b in st.table.ids
    {
      assert Scored(st.table.regions, e, imsize);
    }
  }

  /** Expanding regions of one distinct label each gives regions with
      pairwise disjoint label sets. */
  lemma SingleLabelsDisjoint(raws: seq<RawRegion>, t: Table, border: int, xLim: int, yLim: int)
    requires t == Expand(raws, border, xLim, yLim)
    requires forall k :: 0 <= k < |raws| ==> |raws[k].labels| == 1
    requires forall a, b :: 0 <= a < b < |raws| ==> raws[a].labels != raws[b].labels
    ensures forall x, y :: x in t.ids && y in t.ids && x != y ==> Disjoint(t.regions[x].labels, t.regions[y].labels)
  {
    forall x, y | x in t.ids && y in t.ids && x != y
      ensures Disjoint(t.regions[x].labels, t.regions[y].labels)
    {
      assert t.regions[x].labels == raws[x].labels == [raws[x].labels[0]];
      assert t.regions[y].labels == raws[y].labels == [raws[y].labels[0]];
      if x < y {
        assert raws[x].labels != raws[y].labels;
      } else {
        assert raws[y].labels != raws[x].labels;
      }
    }
  }

  /** The frontier the loop ends with: ids of the final table whose regions
      have pairwise disjoint label sets and together hold every pixel of the
      image, and which no remaining edge leaves. */
  function SearchFrontier(rows: seq<seq<Label>>, width: nat,
                          histC: map<Label, seq<real>>, histT: map<Label, seq<real>>,
                          regionPop: bool, maxRegionSize: int, border: int): (live: seq<int>)
    requires Rectangular(rows, width)
    requires HistogramsCover(rows, histC, histT)
    ensures IsFrontier(Run(rows, width, histC, histT, regionPop, maxRegionSize, border).0, live, |rows| * width)
  {
    var t0 := InitialTable(rows, width, histC, histT, border);
    var prep := Prepare(t0, |rows| * width, regionPop, maxRegionSize);
    InitialFrontier(rows, width, histC, histT, regionPop, maxRegionSize, border);
    AgglomerateLive(prep.0, maxRegionSize, |rows| * width, t0.ids, |rows| * width)
  }
}

=== FILE: similarity.dfy ===
/** The similarity of two regions: colour and texture histogram intersection,
    a size term and a fill term, summed without weights. `imsize` is the
    image's pixel count, fixed for a run. */
module Similarity {
  import opened Geometry
  import opened Histograms
  import opened Regions

  function SimColour(r1: Region, r2: Region): real
  {
    Intersection(r1.histC, r2.histC)
  }

  function SimTexture(r1: Region, r2: Region): real
  {
    Intersection(r1.histT, r2.histT)
  }

  /** `1 - (size1 + size2) / imsize`: small pairs score high. */
  function SimSize(r1: Region, r2: Region, imsize: int): (s: real)
    requires imsize > 0
    ensures r1.size + r2.size >= 0 ==> s <= 1.0
    ensures r1.size + r2.size <= imsize ==> 0.0 <= s
  {
    1.0 - (r1.size + r2.size) as real / imsize as real
  }

  /** `1 - (area of the union box - size1 - size2) / imsize`: pairs whose
      union box has little room left over score high. */
  function SimFill(r1: Region, r2: Region, imsize: int): (s: real)
    requires imsize > 0
    ensures r1.size + r2.size <= Area(Union(r1.box, r2.box)) ==> s <= 1.0
    ensures Area(Union(r1.box, r2.box)) <= imsize && r1.size >= 0 && r2.size >= 0 ==> 0.0 <= s
  {
    var bbsize := Area(Union(r1.box, r2.box));
    1.0 - (bbsize - r1.size - r2.size) as real / imsize as real
  }

  /** The unweighted sum of the four terms. */
  function CalcSim(r1: Region, r2: Region, imsize: int): real
    requires imsize > 0
  {
    SimColour(r1, r2) + SimTexture(r1, r2) + SimSize(r1, r2, imsize) + SimFill(r1, r2, imsize)
  }

  /** The score does not depend on which region comes first. */
  lemma CalcSimSymmetric(r1: Region, r2: Region, imsize: int)
    requires imsize > 0
    ensures CalcSim(r1, r2, imsize) == CalcSim(r2, r1, imsize)
  {
    IntersectionSymmetric(r1.histC, r2.histC);
    IntersectionSymmetric(r1.histT, r2.histT);
    UnionCommutes(r1.box, r2.box);
  }

  /** For histograms normalised as the program builds them, the colour term
      lies in `[0, 3]` (three channel blocks of mass 1) and the texture term
      in `[0, 3]`, below the texture mass of either region. */
  lemma HistogramTermsBounded(r1: Region, r2: Region)
    requires ColourNormalised(r1.histC) && ColourNormalised(r2.histC)
    requires TextureNormalised(r1.histT) && TextureNormalised(r2.histT)
    ensures 0.0 <= SimColour(r1, r2) <= 3.0
    ensures 0.0 <= SimTexture(r1, r2) <= Sum(r1.histT) && SimTexture(r1, r2) <= Sum(r2.histT)
    ensures Sum(r1.histT) <= 3.0
  {
    BlockMassesSum(r1.histC, ColourBins, 1.0, 1.0);
    BlockMassesSum(r1.histT, TextureBins, 0.0, 1.0);
    IntersectionBounds(r1.histC, r2.histC);
    IntersectionBounds(r1.histT, r2.histT);
  }

  /** The size and fill terms together depend only on the union box: the
      pair's own pixel count cancels, leaving `2 - area / imsize`. */
  lemma SizeAndFill(r1: Region, r2: Region, imsize: int)
    requires imsize > 0
    ensures SimSize(r1, r2, imsize) + SimFill(r1, r2, imsize)
            == 2.0 - Area(Union(r1.box, r2.box)) as real / imsize as real
  {
    var n, a, i := (r1.size + r2.size) as real, Area(Union(r1.box, r2.box)) as real, imsize as real;
    assert (a - n) / i == a / i - n / i;
  }

  /** Under the same conditions, and with both boxes ordered and inside the
      image, the whole score lies in `[1, 8]`: at most 3 each from colour and
      texture, and between 1 and 2 from size and fill together, whatever the
      regions' sizes. */
  lemma CalcSimBounded(r1: Region, r2: Region, xLim: int, yLim: int)
    requires xLim * yLim > 0
    requires ColourNormalised(r1.histC) && ColourNormalised(r2.histC)
    requires TextureNormalised(r1.histT) && TextureNormalised(r2.histT)
    requires Ordered(r1.box) && Ordered(r2.box)
    requires Within(r1.box, xLim, yLim) && Within(r2.box, xLim, yLim)
    ensures 1.0 <= CalcSim(r1, r2, xLim * yLim) <= 8.0
  {
    HistogramTermsBounded(r1, r2);
    UnionWithin(r1.box, r2.box, xLim, yLim);
    AreaWithin(Union(r1.box, r2.box), xLim, yLim);
    SizeAndFill(r1, r2, xLim * yLim);
    UnitFraction(Area(Union(r1.box, r2.box)), xLim * yLim);
  }

  /** A count between 0 and `n` over `n` is a fraction in `[0, 1]`. */
  lemma UnitFraction(a: int, n: int)
    requires n > 0 && 0 <= a <= n
    ensures 0.0 <= a as real / n as real <= 1.0
  {
  }

  /** Two regions with identical histograms get the full colour score 3 and a
      texture score equal to their texture mass. */
  lemma IdenticalHistogramsScoreFully(r1: Region, r2: Region)
    requires r1.histC == r2.histC && ColourNormalised(r1.histC)
    requires r1.histT == r2.histT
    ensures SimColour(r1, r2) == 3.0 && SimTexture(r1, r2) == Sum(r1.histT)
  {
    BlockMassesSum(r1.histC, ColourBins, 1.0, 1.0);
    IntersectionSelf(r1.histC);
    IntersectionSelf(r1.histT);
  }
}
